=== FILE: README.md ===
# whistle: a verified model of the whistle-gesture recogniser

`whistle.py` listens to a microphone and turns short whistled melodies into
home-automation commands. Its core has four parts:

- **Note quantiser.** `NoteMapper` holds a 117-entry equal-tempered table anchored at A4 = 440 Hz. `frequency_to_note` maps a frequency to the nearest entry by ratio distance. `note_to_integer` reads a label such as `A4` back into semitones above C0.
- **Peak picker.** `get_peak_frequency` takes the loudest bin of a half spectrum.
- **Gesture matcher.** `process_notes` turns a run of note labels into rising/flat/falling steps. It then looks the step list up in a fixed table of seven patterns, each of which switches a device or drives a music player.
- **Segmenter.** The `main` loop and its `process_buffer` closure collect accepted peaks into a segment. They close the segment when its spread grows or a gap opens, turn it into a note label, and hand the collected notes to the matcher after a silence.

The model is functional. Every part is a pure function over immutable data:

| file | module | what it holds |
|---|---|---|
| `results.dfy` | `Results` | the `Result` and `Option` wrappers |
| `decimal.dfy` | `Decimal` | `str(int)` and `int(str)` on octave numbers |
| `real_facts.dfy` | `RealFacts` | small facts about real division and multiplication |
| `stats.dfy` | `Stats` | the mean, numpy's population variance and the 3 % instability test |
| `spectrum.dfy` | `Spectrum` | the signed silence gate and the peak scan |
| `note_mapper.dfy` | `NoteMapper` | the table constraints, the quantiser and the label parser |
| `gesture.dfy` | `Gesture` | `process_notes`, with the HTTP and MPD calls as an `Action` value |
| `recognizer.dfy` | `Recognizer` | one loop iteration as `Step`, a run of iterations as `Run`, and their invariants |

The exceptions that the model tracks are `Failure` values of `Recognizer.Fault`. Each of them ends the loop of `main`:

- **`Unquantised`:** the mean is 0, so `frequency_to_note` returns `None` and the unpacking on line 229 raises.
- **`Unparsed`:** a label does not parse inside `process_notes` (line 149). Nothing in `main` catches the exception that `note_to_integer` raises on line 117 or 118.
- **`EmptySpectrum`:** a one-sample block leaves an empty half spectrum, and line 134 divides by zero.
- **`ZeroRatio`:** an accepted peak finds a newest buffered sample of 0, and the unused ratio on line 213 divides by zero.

`Recognizer.RunNeverHalts` shows that the first two and `ZeroRatio` cannot happen in a run of iterations from the start state, because every buffered sample lies in the band from 750 to 2000 Hz. In particular, every label the segmenter itself produces parses. `Recognizer.Iterate` states that the third arises exactly on a loud block of one sample. `Recognizer.IterateKeepsValid` shows that every other block leaves a valid state valid. The audio device always delivers 1024 samples, so the third does not arise in practice. Exceptions raised by the HTTP and MPD calls are not modelled (see "Left out").

The table's entries are `440 * 2^((k - 57) / 12)`, which are irrational. The model therefore takes the table as a parameter constrained by `NoteMapper.ValidTable`:

- it has 117 positive entries;
- the entries are strictly increasing;
- entry 57 is 440;
- each entry is twice the one twelve below it.

Two behaviours of the loop are easy to miss:

- **A rejected loud block skips the timeouts.** A block that passes the silence gate but whose peak is rejected reaches a `continue` on lines 246-250. That `continue` skips both timeout checks on lines 259-266. `Recognizer.Step` keeps this behaviour.
- **Instability is noticed one block late.** `process_buffer` judges the segment before the new peak is appended on line 257, so the peak that makes a segment unstable is only judged on the next accepted block. See `Recognizer.InstabilitySeenLate` and `Recognizer.UnstableRestarts`.

## Model

| member | source | states |
|---|---|---|
| Decimal.Format | whistle.py:230 | `'{}'.format(octave)` of a non-negative octave is a non-empty digit string with no leading zero |
| Decimal.ParseFormat | whistle.py:117-118 | `int` of the formatted octave gives the octave back |
| Decimal.ParseLeadingZero | whistle.py:118 | `int(octave)` ignores a leading zero, so `A04` reads like `A4` |
| NoteMapper.DistanceAtLeastOne | whistle.py:103-105 | the ratio distance of positive numbers is at least 1, and is exactly 1 only when they are equal |
| NoteMapper.Nearest | whistle.py:98-108 | the scan's choice minimises the ratio distance over the entries scanned, and every earlier entry is strictly farther (first minimiser wins) |
| NoteMapper.FrequencyToNote | whistle.py:94-112 | no note exactly for a zero target; otherwise the note whose index `octave*12+pitch` is the first table entry at minimal ratio distance |
| NoteMapper.ExactEntry | whistle.py:101-112 | a target equal to a table entry is mapped to that entry |
| NoteMapper.Label | whistle.py:229-230 | the regex of `note_to_integer` splits the label `'{}{}'.format(note, octave)` back into exactly the note's name and its formatted octave |
| NoteMapper.ReferencePitch | whistle.py:86-92 | 440 Hz, table entry 57, is octave 4 name `A`, labelled `A4` |
| NoteMapper.WithinBand | whistle.py:101-108 | every target strictly between the geometric means of an entry and its neighbours is mapped to that entry |
| NoteMapper.SplitPoint | whistle.py:117 | the lazy group `(.+?)` ends at the first digit after at least one character, with no newline before it; there is no split exactly when a newline precedes every such digit |
| NoteMapper.DigitRunEnd | whistle.py:117 | the greedy group `(\d+)` runs to the first non-digit |
| NoteMapper.MatchLabel | whistle.py:117 | a match gives a non-empty name without newlines and with no digit after its first character, followed by the whole digit run up to the end or a non-digit, together a prefix of the label; no match means a newline precedes every digit after the first character |
| NoteMapper.IndexOf | whistle.py:118 | `list.index` finds the first position holding the value |
| NoteMapper.IndexOfAbsent | whistle.py:118 | `list.index` fails exactly when the value is not in the list |
| NoteMapper.PitchOf | whistle.py:118 | a position found by reading a name's characters holds exactly that name, and no position is found for a string outside the twelve names |
| NoteMapper.PitchOfIsIndex | whistle.py:74-76 | reading a name character by character gives the same position as `note_names.index` |
| NoteMapper.NamesDistinct | whistle.py:74-76 | the twelve names are pairwise different |
| NoteMapper.NamesArePlain | whistle.py:74-76 | every name is non-empty, holds no digit or newline, and is found at its own position |
| NoteMapper.NoteToInteger | whistle.py:116-118 | parsing fails exactly when the pattern does not match or the matched name is not one of the twelve, and the error says which; a label shorter than two characters never matches; a failed match means a newline precedes every digit after the first character; on success the value is twelve times the octave digits plus the position of the name in the list |
| NoteMapper.KnownNameDigits | whistle.py:116-118 | for a known name followed by digits, the value is the octave times 12 plus the name's position, and anything after the digit run is ignored |
| NoteMapper.UnknownNameRejected | whistle.py:117-118 | a plain name outside the twelve, followed by digits and then anything that does not start with a digit, raises as `list.index` does |
| NoteMapper.LabelRoundTrip | whistle.py:117-118 | reading the label of any note gives its index `octave*12 + pitch` |
| NoteMapper.QuantisedLabelRoundTrip | whistle.py:110-118 | the label of the quantised note reads back as the table index the scan chose |
| NoteMapper.IndexOrder | whistle.py:118 | note indices are ordered by octave first, then pitch class |
| Spectrum.MaxSample | whistle.py:244 | the gate value is a sample of the block and no sample exceeds it (signed, not absolute) |
| Spectrum.Scan | whistle.py:127-132 | the running best bounds every scanned magnitude, is seeded with -1 at bin 0, and is the first bin attaining it |
| Spectrum.PeakOf | whistle.py:126-136 | the power is at least every magnitude; on magnitudes it is attained at a first maximal bin `k`, and the frequency is `k*rate/(2*len)` |
| Spectrum.FirstMaximumUnique | whistle.py:129-132 | the first maximiser is unique |
| Spectrum.PeakIsFirstMaximum | whistle.py:126-136 | on absolute values the peak is the first maximal bin and its magnitude |
| Stats.Mean | whistle.py:217 | `mean(buffer)` times the number of samples is their total |
| Stats.Variance | whistle.py:218 | numpy's population variance (the square of `std`) is non-negative and is the mean squared deviation from the mean |
| Stats.Unstable | whistle.py:219-223 | `err_rate > 0.03` holds only for a segment with spread, and never for a negative mean |
| Stats.DeviationNonNegative | whistle.py:218 | the sum of squared deviations is non-negative |
| Stats.MeanBounds | whistle.py:217 | the mean lies within any bounds all samples lie within |
| Stats.MeanPositive | whistle.py:217-219 | positive samples have a positive mean, so `err_rate` is defined |
| Stats.ConstantIsStable | whistle.py:217-223 | a constant segment has mean equal to that constant and variance 0, and never exceeds the error rate |
| Stats.UnstableIsErrorRate | whistle.py:217-223 | for a positive mean the square-free test agrees with `std/mean > 0.03` |
| Gesture.StopAllCombines | whistle.py:182-186 | the panic gesture issues the Tsubaki switch-off, the Omega2 switch-off and the MPD stop, in that order |
| Gesture.Sign | whistle.py:151-156 | `simplify` is -1, 0 or 1 with the sign of the difference |
| Gesture.Indices | whistle.py:149 | converting the labels succeeds exactly when every label parses, and then yields each label's value in order |
| Gesture.Steps | whistle.py:158-161 | one step fewer than notes (none for none), step `i` is the sign of note `i+1` minus note `i` |
| Gesture.Lookup | whistle.py:165-186 | a selected action belongs to a pattern with exactly these steps; none is selected exactly when no pattern has them |
| Gesture.Classify | whistle.py:165-186 | the match keeps the steps, a selected action is the table's action for them, and no action is selected exactly when no pattern lists the steps |
| Gesture.ProcessNotes | whistle.py:147-186 | succeeds exactly when every label parses; the steps are the signs of consecutive label values, one fewer than the labels and all in -1..1; an action is selected from a table pattern with those steps, and none only when no pattern lists them |
| Gesture.PatternsDistinct | whistle.py:165-186 | no two branches of the chain test the same step list |
| Gesture.LookupExact | whistle.py:165-186 | an action is selected for a step list exactly when the table pairs them |
| Gesture.StepsTransposed | whistle.py:158-161 | transposing every note by the same interval leaves the steps unchanged |
| Gesture.ShortGestureInert | whistle.py:158-186 | zero or one note gives no steps and no action |
| Gesture.PatternShape | whistle.py:165-186 | every pattern has two steps, except the panic stop, which is three falls |
| Gesture.ThreeFallingSteps | whistle.py:182 | the steps `[-1, -1, -1]` need exactly four strictly falling notes |
| Gesture.ActionNoteCount | whistle.py:158-186 | a selected action needs three notes, or four strictly falling ones for the panic stop |
| Gesture.LabelsOfC5D5 | whistle.py:116-118 | `C5` reads as 60 and `D5` as 62 |
| Gesture.GestureOfThree | whistle.py:147-161 | three readable notes are classified by their two steps |
| Gesture.RiseThenHold | whistle.py:165-166 | C5 D5 D5 switches the Omega2 device on |
| Gesture.FallThenHold | whistle.py:167-168 | D5 C5 C5 switches the Omega2 device off |
| Gesture.FallThenRise | whistle.py:170-171 | D5 C5 D5 switches the Tsubaki device on |
| Gesture.TwoNotesUnmatched | whistle.py:158-186 | C5 D5 gives the steps `[1]`, which no pattern lists, so nothing is dispatched |
| Gesture.LabelH5 | whistle.py:117-118 | `H5` matches the pattern but `H` is no note name, so it fails |
| Gesture.MalformedGesture | whistle.py:149 | one unreadable label fails the whole gesture with that label's error |
| Recognizer.ProcessBuffer | whistle.py:207-234 | the segment stays open exactly when it is stable and within the gap; a closed short segment is discarded; a longer one becomes the label reading back as the table entry nearest its mean; it fails only on a zero mean |
| Recognizer.Apply | whistle.py:221-234 | any close empties the segment; a finalised one appends its label and restarts the note timer; nothing else changes |
| Recognizer.Admit | whistle.py:252-257 | the open segment is judged without the new peak; the peak then restarts the segment if it closed and extends it otherwise; a note is emitted exactly when the segment closed with more than 10 samples; `last_time` becomes now; it fails with `ZeroRatio` exactly when the division of line 213 has a zero divisor, and otherwise exactly on a closing long segment with zero mean, so positive samples never fail |
| Recognizer.RatioUndefined | whistle.py:208-213 | the smaller of the newest sample and a nonzero peak is 0 exactly when the newest sample is 0 and the peak is positive |
| Recognizer.Expire | whistle.py:259-261 | only a non-empty segment past the gap is closed, and it is then emptied; a note is emitted exactly when it held more than 10 samples; otherwise nothing changes |
| Recognizer.Flush | whistle.py:263-266 | past the end gap with notes pending, the notes are matched and cleared whatever the outcome; otherwise nothing changes; it fails exactly when the end gap has passed, notes are pending and one of them does not parse |
| Recognizer.Step | whistle.py:243-266 | a rejected loud block changes nothing; an accepted peak sets `last_time` and restarts the segment if it closed, extends it otherwise; a quiet block empties the segment exactly when the gap has passed; a note is emitted exactly when a segment of more than 10 samples closes; `last_time_note` moves exactly when a note is emitted |
| Recognizer.StartIsValid | whistle.py:199-202 | the start state satisfies the invariant |
| Recognizer.AdmitInBand | whistle.py:249-257 | admitting a peak within 750-2000 Hz keeps every buffered frequency in that band |
| Recognizer.AdmitKeepsValid | whistle.py:252-257 | admitting an in-band peak to a valid state succeeds and keeps the invariant |
| Recognizer.ExpireKeepsValid | whistle.py:259-261 | the timeout check on a valid state succeeds and keeps the invariant |
| Recognizer.FlushKeepsValid | whistle.py:263-266 | flushing a valid state succeeds and keeps the invariant |
| Recognizer.StepKeepsValid | whistle.py:243-266 | from a valid state an iteration never raises, every buffered frequency stays within 750-2000 Hz, and every pending label reads back |
| Recognizer.IterateKeepsValid | whistle.py:237-250 | from a valid state every block except a loud one-sample block is processed without an exception and keeps the invariant |
| Recognizer.RunNeverHalts | whistle.py:236-266 | from a valid state any run of iterations completes and ends in a valid state |
| Recognizer.StepEmission | whistle.py:223-232 | a note is emitted only when the segment held more than 10 samples; it is the note nearest the segment's mean and is appended to the pending notes; no gesture is matched in the same iteration |
| Recognizer.StepGesture | whistle.py:263-266 | a gesture is matched exactly when the block was not rejected, no note was emitted, the end gap has passed and notes are pending; the notes are then cleared, and otherwise only ever extended |
| Recognizer.AdmitDecidesWithoutSample | whistle.py:252-257 | two frequencies that agree on whether the ratio of line 213 is defined give the same outcome; the new frequency only becomes the newest element of the segment |
| Recognizer.FlushIgnoresBuffer | whistle.py:263-266 | the gesture stage neither reads nor changes the segment |
| Recognizer.InstabilitySeenLate | whistle.py:217-257 | two accepted peaks that differ only in frequency give the same outcome, notes and segment up to its newest sample, so an outlier is noticed one block late |
| Recognizer.SteadyPitchExtends | whistle.py:217-257 | a steady segment is extended, not closed, by an accepted peak that arrives within the gap |
| Recognizer.UnstableRestarts | whistle.py:223-257 | an unstable segment is closed by the next accepted peak, which restarts the segment on its own; a note is emitted exactly when the closed segment held more than 10 samples |
| Recognizer.QuietTimeoutCloses | whistle.py:259-261 | a quiet block more than the gap after the last accepted peak closes the open segment |
| Recognizer.StepActionInTable | whistle.py:165-186 | an action dispatched by one iteration is the action of a table entry |
| Recognizer.RunActionsFromTable | whistle.py:165-186 | every action a run dispatches is the action of a table entry |
| Recognizer.Iterate | whistle.py:237-250 | an empty read changes nothing; a block with no sample above 4000 is quiet however far below zero it swings, so only the timeout checks run; a block with a louder sample is judged by its peak; with the spectrum as long as half the block, it raises exactly on a loud one-sample block |
| Recognizer.Run | whistle.py:236-266 | no blocks leave the state unchanged and dispatch nothing; a run dispatches at most one action per block; `RunOne` and `RunAppend` pin it down as `Step` applied to each block in order |
| Recognizer.RunOne | whistle.py:236-266 | a run of one block is one loop iteration: its fault, or its state and the action it dispatched |
| Recognizer.RunAppend | whistle.py:236-266 | running two lists of blocks one after the other is running their concatenation, with the actions in order and the first fault stopping the run |

## Left out

- **Audio capture and the FFT.** `PyAudioInput` and `get_spectrum` (lines 45-61 and 121-123) are device I/O and a foreign numpy call. Each iteration instead receives its samples and the magnitudes of the first half of the spectrum.
- **HTTP and MPD calls.** The `requests` session and `CustomMpd` (lines 16-42 and 166-186) are network side effects. They are represented by `Gesture.Action`, and `Gesture.Effects` lists the calls each action makes.
- **Dispatch failures.** An HTTP or MPD call inside `process_notes` can raise, for example on a connection error. The exception then leaves `main`, `notes.clear()` on line 266 never runs, and the loop stops. The model treats every dispatch as succeeding, so `Recognizer.RunNeverHalts` covers only the three faults of `Recognizer.Fault`.
- **The clock and the unbounded loop.** `time.time()` and `while True` are replaced by a timestamp in each `Recognizer.Block` and by `Recognizer.Run` over a finite list of blocks.
- **Unused code.** `get_peak_frequencies`, `process_note` and `ConsoleOutput` are never called from `main`.
- **Logging.** `logger` calls have no effect on the state.
- **Dead computations.** The absolute difference on line 102 is immediately overwritten. The `diff` on lines 209-215 is never read. `Recognizer.ProcessBuffer` is therefore modelled without its `freq` argument, and `Recognizer.Admit` models only the division's exception (`Recognizer.RatioUndefined`).
- **Floating point.** All arithmetic is exact `real`. Rounding in the table, the mean and `std` is not modelled.
- NoteMapper.ValidTable: does not fix the irrational table values, only positivity, strict increase, the 440 Hz anchor at entry 57 and the octave doubling. Properties that depend on the exact values, such as where the band boundaries lie, are stated relative to the table.
- Stats.UnstableIsErrorRate: compares squares instead of taking numpy's square root, and the equivalence is stated for a positive mean, the only case reachable from a valid state.
- **Regex digit classes.** `\d` in Python also matches non-ASCII decimal digits; the model only recognises `0`-`9`. Labels the program produces contain only ASCII digits.
- NoteMapper.Interpret: looks names up with `PitchOf`, a character-wise reading. `NoteMapper.PitchOfIsIndex` proves it equal to `list.index` over the twelve names (`NoteMapper.IndexOf`).

=== FILE: decimal.dfy ===
/** Decimal digit strings: the `str(int)` that formats an octave into a note
    label and the `int(...)` that reads it back. Only ASCII digits are modelled. */
module Decimal {

  predicate IsDigit(c: char) {
    '0' <= c <= '9'
  }

  predicate AllDigits(s: string) {
    forall i :: 0 <= i < |s| ==> IsDigit(s[i])
  }

  function DigitValue(c: char): (d: nat)
    requires IsDigit(c)
    ensures d < 10
  {
    c as int - '0' as int
  }

  function DigitChar(d: nat): (c: char)
    requires d < 10
    ensures IsDigit(c) && DigitValue(c) == d
  {
    ('0' as int + d) as char
  }

  /** `str(n)` for a non-negative integer: no sign, no leading zero. */
  function Format(n: nat): (s: string)
    ensures |s| > 0 && AllDigits(s)
    ensures |s| > 1 ==> s[0] != '0'
  {
    if n < 10 then [DigitChar(n)] else Format(n / 10) + [DigitChar(n % 10)]
  }

  /** `int(s)` for a non-empty digit string; leading zeros are accepted. */
  function Parse(s: string): nat
    requires AllDigits(s)
  {
    if |s| == 0 then 0 else Parse(s[..|s| - 1]) * 10 + DigitValue(s[|s| - 1])
  }

  /** Reading back a formatted number gives the number. */
  lemma {:induction false} ParseFormat(n: nat)
    ensures Parse(Format(n)) == n
  {
    var s := Format(n);
    if n >= 10 {
      ParseFormat(n / 10);
      assert s[..|s| - 1] == Format(n / 10);
    }
  }

  /** A leading zero does not change the value `int` reads. */
  lemma {:induction false} ParseLeadingZero(s: string)
    requires AllDigits(s)
    ensures AllDigits("0" + s) && Parse("0" + s) == Parse(s)
  {
    if |s| > 0 {
      var z := "0" + s;
      assert z[..|z| - 1] == "0" + s[..|s| - 1];
      ParseLeadingZero(s[..|s| - 1]);
    }
  }
}

=== FILE: gesture.dfy ===
/** The gesture matcher `process_notes`: note labels become note indices,
    consecutive indices become up/flat/down steps, and the step list is
    compared by exact equality against a fixed table of patterns. The HTTP
    and MPD calls each pattern triggers are represented by an `Action`. */
module Gesture {
  import opened Results
  import opened NoteMapper

  /** The two remote switches: `omega2.lan:8000/switch/0` and
      `tsubaki:31337/switch`. */
  datatype Device = Omega2Switch | TsubakiSwitch

  /** One side effect: an HTTP PUT or DELETE on a switch, or an MPD command. */
  datatype Effect = SwitchPut(device: Device) | SwitchDelete(device: Device) | MpdPlay | MpdStop

  datatype Action = SwitchOn(device: Device) | SwitchOff(device: Device) | Play | Stop | StopAll

  /** The side effects of an action, in the order they are issued. */
  function Effects(a: Action): seq<Effect> {
    match a
    case SwitchOn(d) => [SwitchPut(d)]
    case SwitchOff(d) => [SwitchDelete(d)]
    case Play => [MpdPlay]
    case Stop => [MpdStop]
    case StopAll => [SwitchDelete(TsubakiSwitch), SwitchDelete(Omega2Switch), MpdStop]
  }

  /** The stop-everything gesture issues exactly the effects of the two
      switch-off gestures and the stop gesture, Tsubaki first. */
  lemma StopAllCombines()
    ensures Effects(StopAll)
      == Effects(SwitchOff(TsubakiSwitch)) + Effects(SwitchOff(Omega2Switch)) + Effects(Stop)
  {
  }

  datatype Pattern = Pattern(steps: seq<int>, action: Action)

  /** The `if`/`elif` chain of `process_notes` as data, in its order. */
  const Patterns: seq<Pattern> := [
    Pattern([1, 0], SwitchOn(Omega2Switch)),
    Pattern([-1, 0], SwitchOff(Omega2Switch)),
    Pattern([-1, 1], SwitchOn(TsubakiSwitch)),
    Pattern([1, -1], SwitchOff(TsubakiSwitch)),
    Pattern([0, 1], Play),
    Pattern([0, -1], Stop),
    Pattern([-1, -1, -1], StopAll)
  ]

  /** An action that some entry of the table dispatches. */
  predicate InTable(a: Action) {
    exists j :: 0 <= j < |Patterns| && Patterns[j].action == a
  }

  /** `simplify`: the sign of a difference. */
  function Sign(d: int): (s: int)
    ensures s == -1 || s == 0 || s == 1
    ensures s < 0 <==> d < 0
    ensures s > 0 <==> d > 0
  {
    if d < 0 then -1 else if d > 0 then 1 else 0
  }

  /** `list(map(note_to_integer, notes))`: the first label that does not
      parse aborts the whole conversion with its error. */
  function Indices(labels: seq<string>): (r: Result<seq<nat>, ParseError>)
    ensures r.Success? <==> forall i :: 0 <= i < |labels| ==> NoteToInteger(labels[i]).Success?
    ensures r.Success? ==> |r.value| == |labels|
    ensures r.Success? ==> forall i :: 0 <= i < |labels| ==> NoteToInteger(labels[i]) == Success(r.value[i])
  {
    if |labels| == 0 then Success([])
    else
      var rest := labels[1..];
      assert forall i :: 1 <= i < |labels| ==> labels[i] == rest[i - 1];
      match NoteToInteger(labels[0])
      case Failure(e) => Failure(e)
      case Success(k) =>
        match Indices(rest)
        case Failure(e) => Failure(e)
        case Success(ks) => Success([k] + ks)
  }

  /** The step list: the sign of each consecutive difference. */
  function Steps(ks: seq<int>): (st: seq<int>)
    ensures |st| == if |ks| == 0 then 0 else |ks| - 1
    ensures forall i :: 0 <= i < |st| ==> st[i] == Sign(ks[i + 1] - ks[i])
    ensures forall i :: 0 <= i < |st| ==> -1 <= st[i] <= 1
  {
    if |ks| < 2 then [] else [Sign(ks[1] - ks[0])] + Steps(ks[1..])
  }

  /** The first pattern whose steps equal `st` exactly. */
  function Lookup(table: seq<Pattern>, st: seq<int>): (r: Option<Action>)
    ensures r.Some? ==> Pattern(st, r.value) in table
    ensures r.None? <==> forall i :: 0 <= i < |table| ==> table[i].steps != st
  {
    if |table| == 0 then None
    else if table[0].steps == st then Some(table[0].action)
    else
      var r := Lookup(table[1..], st);
      assert forall i :: 1 <= i < |table| ==> table[i] == table[1..][i - 1];
      r
  }

  /** What a gesture attempt produced: its steps and the action, if any. */
  datatype Match = Match(steps: seq<int>, action: Option<Action>)

  /** The action chosen for a step list. */
  function Classify(st: seq<int>): (m: Match)
    ensures m.steps == st
    ensures m.action.Some? ==> Pattern(st, m.action.value) in Patterns
    ensures m.action.None? <==> forall j :: 0 <= j < |Patterns| ==> Patterns[j].steps != st
  {
    Match(st, Lookup(Patterns, st))
  }

  /** `process_notes`: fails when a label does not parse; otherwise the step
      list, with the action of the pattern equal to it. */
  function ProcessNotes(labels: seq<string>): (r: Result<Match, ParseError>)
    ensures r.Success? <==> forall i :: 0 <= i < |labels| ==> NoteToInteger(labels[i]).Success?
    ensures r.Success? ==> |r.value.steps| == if |labels| == 0 then 0 else |labels| - 1
    ensures r.Success? ==> forall i :: 0 <= i < |r.value.steps| ==> -1 <= r.value.steps[i] <= 1
    ensures r.Success? ==> Indices(labels).Success? && r.value.steps == Steps(Indices(labels).value)
    ensures r.Success? && r.value.action.Some? ==> Pattern(r.value.steps, r.value.action.value) in Patterns
    ensures r.Success? && r.value.action.None? ==>
      forall j :: 0 <= j < |Patterns| ==> Patterns[j].steps != r.value.steps
  {
    var ks :- Indices(labels);
    Success(Classify(Steps(ks)))
  }

  // ---------------------------------------------------------------------
  // Properties of the table and the matcher

  lemma PatternsDistinct()
    ensures forall i, j :: 0 <= i < j < |Patterns| ==> Patterns[i].steps != Patterns[j].steps
  {
  }

  /** With distinct step lists, at most one pattern can be selected, and the
      selected one is exactly the pattern listing the steps. */
  lemma LookupExact(st: seq<int>, a: Action)
    ensures Lookup(Patterns, st) == Some(a) <==> Pattern(st, a) in Patterns
  {
    PatternsDistinct();
    if Pattern(st, a) in Patterns {
      var i :| 0 <= i < |Patterns| && Patterns[i] == Pattern(st, a);
      var r := Lookup(Patterns, st);
      assert r.Some?;
      var j :| 0 <= j < |Patterns| && Patterns[j] == Pattern(st, r.value);
      assert i == j;
    }
  }

  /** Moving every note by the same interval leaves the steps unchanged. */
  lemma {:induction false} StepsTransposed(ks: seq<int>, c: int)
    ensures Steps(seq(|ks|, i requires 0 <= i < |ks| => ks[i] + c)) == Steps(ks)
  {
    var moved := seq(|ks|, i requires 0 <= i < |ks| => ks[i] + c);
    if |ks| >= 2 {
      StepsTransposed(ks[1..], c);
      assert moved[1..] == seq(|ks[1..]|, i requires 0 <= i < |ks[1..]| => ks[1..][i] + c);
    }
  }

  /** Fewer than two notes give no steps and no action. */
  lemma ShortGestureInert(labels: seq<string>)
    requires |labels| <= 1
    ensures ProcessNotes(labels).Success? ==> ProcessNotes(labels).value == Match([], None)
  {
    if ProcessNotes(labels).Success? {
      assert forall i :: 0 <= i < |Patterns| ==> Patterns[i].steps != [];
    }
  }

  /** The shape of every pattern: two steps, or three falling steps for the
      panic stop. */
  lemma PatternShape(st: seq<int>, a: Action)
    requires Pattern(st, a) in Patterns
    ensures |st| == (if a == StopAll then 3 else 2)
    ensures a == StopAll ==> st == [-1, -1, -1]
  {
  }

  /** Three falling steps take four strictly falling notes. */
  lemma ThreeFallingSteps(ks: seq<int>)
    requires Steps(ks) == [-1, -1, -1]
    ensures |ks| == 4 && ks[0] > ks[1] > ks[2] > ks[3]
  {
    var st := Steps(ks);
    assert st[0] == Sign(ks[1] - ks[0]);
    assert st[1] == Sign(ks[2] - ks[1]);
    assert st[2] == Sign(ks[3] - ks[2]);
  }

  /** Every selected action needs one more note than its pattern has steps:
      three for the two-step patterns, four for the panic stop, whose notes
      then fall strictly. */
  lemma ActionNoteCount(labels: seq<string>)
    requires ProcessNotes(labels).Success? && ProcessNotes(labels).value.action.Some?
    ensures |labels| == (if ProcessNotes(labels).value.action.value == StopAll then 4 else 3)
    ensures ProcessNotes(labels).value.action.value == StopAll ==>
      Indices(labels).Success? && var ks := Indices(labels).value;
      |ks| == 4 && ks[0] > ks[1] > ks[2] > ks[3]
  {
    var m := ProcessNotes(labels).value;
    PatternShape(m.steps, m.action.value);
    if m.action.value == StopAll {
      ThreeFallingSteps(Indices(labels).value);
    }
  }

  // ---------------------------------------------------------------------
  // Worked gestures

  lemma LabelsOfC5D5()
    ensures NoteToInteger("C5") == Success(60)
    ensures NoteToInteger("D5") == Success(62)
  {
    LabelRoundTrip(Note(5, 0));
    LabelRoundTrip(Note(5, 2));
    assert Label(Note(5, 0)) == "C5";
    assert Label(Note(5, 2)) == "D5";
  }

  lemma IndicesCons(l: string, ls: seq<string>, k: nat, ks: seq<nat>)
    requires NoteToInteger(l) == Success(k) && Indices(ls) == Success(ks)
    ensures Indices([l] + ls) == Success([k] + ks)
  {
    var all := [l] + ls;
    assert all[0] == l;
    assert all[1..] == ls;
  }

  lemma IndicesFailure(a: string, b: string, ka: nat)
    requires NoteToInteger(a) == Success(ka) && NoteToInteger(b).Failure?
    ensures Indices([a, b]) == Failure(NoteToInteger(b).error)
  {
    var ls := [a, b];
    assert ls[0] == a && ls[1..] == [b];
    assert [b][0] == b;
  }

  lemma IndicesOfOne(a: string, ka: nat)
    requires NoteToInteger(a) == Success(ka)
    ensures Indices([a]) == Success([ka])
  {
    assert Indices([]) == Success([]);
    IndicesCons(a, [], ka, []);
    assert [a] + [] == [a];
    assert [ka] + [] == [ka];
  }

  lemma IndicesOfTwo(a: string, b: string, ka: nat, kb: nat)
    requires NoteToInteger(a) == Success(ka)
    requires NoteToInteger(b) == Success(kb)
    ensures Indices([a, b]) == Success([ka, kb])
  {
    IndicesOfOne(b, kb);
    IndicesCons(a, [b], ka, [kb]);
    assert [a] + [b] == [a, b];
    assert [ka] + [kb] == [ka, kb];
  }

  lemma IndicesOfThree(a: string, b: string, c: string, ka: nat, kb: nat, kc: nat)
    requires NoteToInteger(a) == Success(ka)
    requires NoteToInteger(b) == Success(kb)
    requires NoteToInteger(c) == Success(kc)
    ensures Indices([a, b, c]) == Success([ka, kb, kc])
  {
    IndicesOfTwo(b, c, kb, kc);
    IndicesCons(a, [b, c], ka, [kb, kc]);
    assert [a] + [b, c] == [a, b, c];
    assert [ka] + [kb, kc] == [ka, kb, kc];
  }

  lemma StepsOfTwo(ka: int, kb: int)
    ensures Steps([ka, kb]) == [Sign(kb - ka)]
  {
    assert [ka, kb][1..] == [kb];
    assert Steps([kb]) == [];
  }

  lemma StepsOfThree(ka: int, kb: int, kc: int)
    ensures Steps([ka, kb, kc]) == [Sign(kb - ka), Sign(kc - kb)]
  {
    assert [ka, kb, kc][1..] == [kb, kc];
    StepsOfTwo(kb, kc);
  }

  lemma ProcessNotesOf(labels: seq<string>, ks: seq<nat>)
    requires Indices(labels) == Success(ks)
    ensures ProcessNotes(labels) == Success(Classify(Steps(ks)))
  {
  }

  lemma ProcessNotesFails(labels: seq<string>)
    requires Indices(labels).Failure?
    ensures ProcessNotes(labels) == Failure(Indices(labels).error)
  {
  }

  /** A three-note gesture is classified by its two steps. */
  lemma GestureOfThree(a: string, b: string, c: string, ka: nat, kb: nat, kc: nat)
    requires NoteToInteger(a) == Success(ka)
    requires NoteToInteger(b) == Success(kb)
    requires NoteToInteger(c) == Success(kc)
    ensures ProcessNotes([a, b, c]) == Success(Classify([Sign(kb - ka), Sign(kc - kb)]))
  {
    IndicesOfThree(a, b, c, ka, kb, kc);
    ProcessNotesOf([a, b, c], [ka, kb, kc]);
    StepsOfThree(ka, kb, kc);
  }

  /** A two-note gesture is classified by its one step. */
  lemma GestureOfTwo(a: string, b: string, ka: nat, kb: nat)
    requires NoteToInteger(a) == Success(ka)
    requires NoteToInteger(b) == Success(kb)
    ensures ProcessNotes([a, b]) == Success(Classify([Sign(kb - ka)]))
  {
    IndicesOfTwo(a, b, ka, kb);
    ProcessNotesOf([a, b], [ka, kb]);
    StepsOfTwo(ka, kb);
  }

  /** C5 D5 D5 rises then stays: the first device is switched on. */
  lemma RiseThenHold()
    ensures ProcessNotes(["C5", "D5", "D5"]) == Success(Match([1, 0], Some(SwitchOn(Omega2Switch))))
  {
    LabelsOfC5D5();
    GestureOfThree("C5", "D5", "D5", 60, 62, 62);
    LookupExact([1, 0], SwitchOn(Omega2Switch));
  }

  /** D5 C5 C5 falls then stays: the first device is switched off. */
  lemma FallThenHold()
    ensures ProcessNotes(["D5", "C5", "C5"]) == Success(Match([-1, 0], Some(SwitchOff(Omega2Switch))))
  {
    LabelsOfC5D5();
    GestureOfThree("D5", "C5", "C5", 62, 60, 60);
    LookupExact([-1, 0], SwitchOff(Omega2Switch));
  }

  /** D5 C5 D5 falls then rises: the second device is switched on. */
  lemma FallThenRise()
    ensures ProcessNotes(["D5", "C5", "D5"]) == Success(Match([-1, 1], Some(SwitchOn(TsubakiSwitch))))
  {
    LabelsOfC5D5();
    GestureOfThree("D5", "C5", "D5", 62, 60, 62);
    LookupExact([-1, 1], SwitchOn(TsubakiSwitch));
  }

  /** C5 D5 gives the single step [1], which no pattern lists. */
  lemma TwoNotesUnmatched()
    ensures ProcessNotes(["C5", "D5"]) == Success(Match([1], None))
  {
    LabelsOfC5D5();
    GestureOfTwo("C5", "D5", 60, 62);
    assert forall i :: 0 <= i < |Patterns| ==> Patterns[i].steps != [1];
  }

  /** "H" is no pitch-class name, so "H5" does not parse. */
  lemma LabelH5()
    ensures NoteToInteger("H5") == Failure(UnknownName("H"))
  {
    assert PlainName("H");
    assert "H" !in NoteNames;
    UnknownNameRejected("H", "5", []);
    assert "H" + "5" + [] == "H5";
  }

  /** A label naming no pitch class aborts the match: C5 then H5. */
  lemma MalformedGesture()
    ensures ProcessNotes(["C5", "H5"]) == Failure(UnknownName("H"))
  {
    LabelsOfC5D5();
    LabelH5();
    IndicesFailure("C5", "H5", 60);
    ProcessNotesFails(["C5", "H5"]);
  }
}

=== FILE: note_mapper.dfy ===
/** The note quantiser and label arithmetic of `NoteMapper`.

    The reference table holds 117 semitones in 12-tone equal temperament: the
    constructor lays out ten octaves of twelve semitones at offsets
    `(octave - 5) * 12 + note` from 440 Hz and then drops the first three, so
    entry `k` is `440 * 2^((k - 57) / 12)`. Those powers of two are
    irrational, so the table is a parameter here, constrained by `ValidTable`
    to the facts that hold of the exact values. */
module NoteMapper {
  import opened Results
  import opened Decimal
  import opened RealFacts

  const TableSize: nat := 117
  /** Entry 57 is A4, the 440 Hz reference pitch. */
  const AnchorIndex: nat := 57
  const AnchorFrequency: real := 440.0

  const NoteNames: seq<string> :=
    ["C", "C#", "D", "D#", "E", "F", "F#", "G", "G#", "A", "A#", "B"]

  type PitchClass = p: nat | p < 12

  /** A note as `frequency_to_note` returns it: an octave and a pitch class
      (the index of its name in `NoteNames`). */
  datatype Note = Note(octave: nat, pitch: PitchClass)

  /** The integer `note_to_integer` assigns: semitones above C0. */
  function Index(n: Note): nat {
    n.octave * 12 + n.pitch
  }

  /** The label `'{name}{octave}'` the segmenter appends to the gesture. */
  function Label(n: Note): (l: string)
    ensures MatchLabel(l) == Some(Groups(NoteNames[n.pitch], Format(n.octave)))
  {
    var name := NoteNames[n.pitch];
    var d := Format(n.octave);
    NamesArePlain(n.pitch);
    MatchNameDigits(name, d, []);
    assert name + d + [] == name + d;
    name + d
  }

  ghost predicate ValidTable(t: seq<real>) {
    && |t| == TableSize
    && (forall i :: 0 <= i < |t| ==> t[i] > 0.0)
    && (forall i, j :: 0 <= i < j < |t| ==> t[i] < t[j])
    && t[AnchorIndex] == AnchorFrequency
    && (forall i, j :: 0 <= i < j < |t| && j == i + 12 ==> t[j] == 2.0 * t[i])
  }

  // ---------------------------------------------------------------------
  // frequency_to_note

  /** The distance the scan minimises: the larger of table entry `f` and
      target `x` divided by the smaller, computed by the same comparison as
      `frequency_to_note` in whistle.py (so a negative target gives a negative
      distance). */
  function Distance(f: real, x: real): real
    requires f != 0.0 && x != 0.0
  {
    if f < x then x / f else f / x
  }

  lemma DistanceAtLeastOne(f: real, x: real)
    requires f > 0.0 && x > 0.0
    ensures Distance(f, x) >= 1.0
    ensures Distance(f, x) == 1.0 <==> f == x
  {
    if f < x {
      assert x / f * f == x;
    } else if x < f {
      assert f / x * x == f;
    }
  }

  /** The index the scan has chosen after visiting `t[..n]`: a later entry
      replaces the running best only when strictly closer, so the first of
      several equally close entries wins. */
  function Nearest(t: seq<real>, x: real, n: nat): (k: nat)
    requires 0 < n <= |t|
    requires forall i :: 0 <= i < |t| ==> t[i] > 0.0
    requires x != 0.0
    ensures k < n
    ensures forall j :: 0 <= j < n ==> Distance(t[k], x) <= Distance(t[j], x)
    ensures forall j :: 0 <= j < k ==> Distance(t[k], x) < Distance(t[j], x)
  {
    if n == 1 then 0
    else
      var k := Nearest(t, x, n - 1);
      if Distance(t[n - 1], x) < Distance(t[k], x) then n - 1 else k
  }

  /** `frequency_to_note`: no note for a zero target, otherwise the note of
      the first table entry at minimal ratio distance. */
  function FrequencyToNote(t: seq<real>, x: real): (r: Option<Note>)
    requires ValidTable(t)
    ensures r.None? <==> x == 0.0
    ensures r.Some? ==> Index(r.value) < |t|
    ensures r.Some? ==> forall j :: 0 <= j < |t| ==>
      Distance(t[Index(r.value)], x) <= Distance(t[j], x)
    ensures r.Some? ==> forall j :: 0 <= j < Index(r.value) ==>
      Distance(t[Index(r.value)], x) < Distance(t[j], x)
  {
    if x == 0.0 then None
    else
      var k := Nearest(t, x, |t|);
      Some(Note(k / 12, k % 12))
  }

  /** A target equal to a table entry maps to that entry: its distance is 1,
      every other entry's is larger. */
  lemma ExactEntry(t: seq<real>, k: nat)
    requires ValidTable(t) && k < |t|
    ensures FrequencyToNote(t, t[k]).Some?
    ensures Index(FrequencyToNote(t, t[k]).value) == k
  {
    var n := FrequencyToNote(t, t[k]).value;
    var r := Index(n);
    DistanceAtLeastOne(t[k], t[k]);
    DistanceAtLeastOne(t[r], t[k]);
    assert t[r] == t[k];
  }

  /** 440 Hz is A4. */
  lemma ReferencePitch(t: seq<real>)
    requires ValidTable(t)
    ensures FrequencyToNote(t, 440.0) == Some(Note(4, 9))
    ensures Label(Note(4, 9)) == "A4"
  {
    ExactEntry(t, AnchorIndex);
  }

  /** An entry at or below `lo`, with `lo * f < x * x` and `lo < f`, is
      farther from `x` than `f` is. */
  lemma FartherBelow(e: real, lo: real, f: real, x: real)
    requires 0.0 < e <= lo < f && x > 0.0 && lo * f < x * x
    ensures Distance(f, x) < Distance(e, x)
  {
    MulLess(lo, f, lo);
    SquareMonotone(lo, x);
    DivLess(x, f, x, lo);
    DivLess(f, x, x, lo);
    DivLess(x, lo, x, e);
    if e < lo { assert x * e < x * lo; }
  }

  /** An entry at or above `hi`, with `f * hi > x * x` and `f < hi`, is
      farther from `x` than `f` is. */
  lemma FartherAbove(e: real, hi: real, f: real, x: real)
    requires 0.0 < f < hi <= e && x > 0.0 && x * x < f * hi
    ensures Distance(f, x) < Distance(e, x)
  {
    MulLess(f, hi, hi);
    SquareMonotone(x, hi);
    DivLess(f, x, hi, x);
    DivLess(x, f, hi, x);
    DivLess(hi, x, e, x);
  }

  /** Every entry below `k` is farther from a target above the geometric
      mean of `t[k - 1]` and `t[k]` than `t[k]` is. */
  lemma CloserThanBelow(t: seq<real>, k: nat, r: nat, x: real)
    requires ValidTable(t) && r < k < |t| && x > 0.0
    requires t[k - 1] * t[k] < x * x
    ensures Distance(t[k], x) < Distance(t[r], x)
  {
    assert t[r] <= t[k - 1];
    FartherBelow(t[r], t[k - 1], t[k], x);
  }

  /** Every entry above `k` is farther from a target below the geometric
      mean of `t[k]` and `t[k + 1]` than `t[k]` is. */
  lemma CloserThanAbove(t: seq<real>, k: nat, r: nat, x: real)
    requires ValidTable(t) && k < r < |t| && x > 0.0
    requires x * x < t[k] * t[k + 1]
    ensures Distance(t[k], x) < Distance(t[r], x)
  {
    assert t[k + 1] <= t[r];
    FartherAbove(t[r], t[k + 1], t[k], x);
  }

  /** The quantiser's boundary property: every target strictly inside the
      band of entry `k`, delimited by the geometric means with its
      neighbours, maps to entry `k`. */
  lemma WithinBand(t: seq<real>, k: nat, x: real)
    requires ValidTable(t) && k < |t| && x > 0.0
    requires k == 0 || t[k - 1] * t[k] < x * x
    requires k == |t| - 1 || x * x < t[k] * t[k + 1]
    ensures FrequencyToNote(t, x).Some?
    ensures Index(FrequencyToNote(t, x).value) == k
  {
    var r := Index(FrequencyToNote(t, x).value);
    assert Distance(t[r], x) <= Distance(t[k], x);
    if r < k {
      CloserThanBelow(t, k, r, x);
    } else if r > k {
      CloserThanAbove(t, k, r, x);
    }
  }

  // ---------------------------------------------------------------------
  // note_to_integer

  /** Where the lazy group `(.+?)` of `re.match(r'(.+?)(\d+)', s)` stops:
      the first position `k >= 1` holding a digit, provided `.` could
      consume every character before it (none is a newline). */
  function SplitPoint(s: string, k: nat): (r: Option<nat>)
    requires k >= 1
    decreases |s| - k
    ensures r.Some? ==> k <= r.value < |s| && IsDigit(s[r.value])
    ensures r.Some? ==> forall i :: k <= i < r.value ==> !IsDigit(s[i])
    ensures r.Some? ==> forall i :: k - 1 <= i < r.value ==> s[i] != '\n'
    ensures r.None? ==> forall i :: k <= i < |s| && IsDigit(s[i]) ==> '\n' in s[k - 1..i]
  {
    if k >= |s| then None
    else if s[k - 1] == '\n' then
      assert forall i :: k <= i < |s| && IsDigit(s[i]) ==> s[k - 1..i][0] == '\n';
      None
    else if IsDigit(s[k]) then Some(k)
    else
      var r := SplitPoint(s, k + 1);
      assert forall i :: k + 1 <= i < |s| ==> s[k - 1..i] == [s[k - 1]] + s[k..i];
      r
  }

  /** End of the greedy `(\d+)` run that starts at `k`. */
  function DigitRunEnd(s: string, k: nat): (e: nat)
    requires k <= |s|
    decreases |s| - k
    ensures k <= e <= |s|
    ensures forall i :: k <= i < e ==> IsDigit(s[i])
    ensures e == |s| || !IsDigit(s[e])
  {
    if k < |s| && IsDigit(s[k]) then DigitRunEnd(s, k + 1) else k
  }

  datatype Groups = Groups(name: string, octave: string)

  /** The two groups of the match, or `None` when the pattern does not match.
      Characters after the digit run are not looked at. */
  function MatchLabel(s: string): (r: Option<Groups>)
    ensures r.Some? ==> |r.value.name| >= 1 && |r.value.octave| >= 1
    ensures r.Some? ==> AllDigits(r.value.octave)
    ensures r.Some? ==> r.value.name + r.value.octave <= s
    ensures r.Some? ==> forall i :: 0 <= i < |r.value.name| ==> r.value.name[i] != '\n'
    ensures r.Some? ==> forall i :: 1 <= i < |r.value.name| ==> !IsDigit(r.value.name[i])
    ensures r.Some? ==> var e := |r.value.name| + |r.value.octave|;
      e == |s| || !IsDigit(s[e])
    ensures r.None? ==> forall i :: 1 <= i < |s| && IsDigit(s[i]) ==> '\n' in s[..i]
  {
    match SplitPoint(s, 1)
    case None => None
    case Some(k) =>
      var e := DigitRunEnd(s, k);
      assert s[..k] + s[k..e] == s[..e];
      Some(Groups(s[..k], s[k..e]))
  }

  /** `list.index`: the first position holding `x`. */
  function IndexOf(xs: seq<string>, x: string): (r: Option<nat>)
    ensures r.Some? ==> r.value < |xs| && xs[r.value] == x
    ensures r.Some? ==> forall i :: 0 <= i < r.value ==> xs[i] != x
  {
    if |xs| == 0 then None
    else if xs[0] == x then Some(0)
    else match IndexOf(xs[1..], x)
      case None => None
      case Some(i) => Some(i + 1)
  }

  /** The position of a name in `NoteNames`, read off its characters: a
      letter, optionally followed by a sharp sign. */
  function PitchOf(name: string): (r: Option<PitchClass>)
    ensures r.Some? ==> NoteNames[r.value] == name
    ensures r.None? ==> name !in NoteNames
  {
    assert |name| == 1 ==> name == [name[0]];
    assert |name| == 2 ==> name == [name[0], name[1]];
    if |name| == 1 then
      match name[0]
      case 'C' => Some(0)
      case 'D' => Some(2)
      case 'E' => Some(4)
      case 'F' => Some(5)
      case 'G' => Some(7)
      case 'A' => Some(9)
      case 'B' => Some(11)
      case _ => None
    else if |name| == 2 && name[1] == '#' then
      match name[0]
      case 'C' => Some(1)
      case 'D' => Some(3)
      case 'F' => Some(6)
      case 'G' => Some(8)
      case 'A' => Some(10)
      case _ => None
    else None
  }

  lemma PitchOfNames(p: PitchClass)
    ensures PitchOf(NoteNames[p]) == Some(p)
  {
  }

  /** Reading the characters agrees with `list.index` on the twelve names. */
  lemma PitchOfIsIndex(x: string)
    ensures PitchOf(x) == IndexOf(NoteNames, x)
  {
    NamesDistinct();
    if PitchOf(x).Some? {
      IndexOfDistinct(NoteNames, PitchOf(x).value);
    } else {
      IndexOfAbsent(NoteNames, x);
    }
  }

  datatype ParseError =
    | NoMatch(text: string)         // `re.match` returned None
    | UnknownName(name: string)     // `note_names.index` raised

  /** `note_to_integer`: octave times twelve plus the name's position. */
  function NoteToInteger(s: string): (r: Result<nat, ParseError>)
    ensures |s| < 2 ==> r == Failure(NoMatch(s))
    ensures r.Failure? && r.error.NoMatch? ==>
      forall i :: 1 <= i < |s| && IsDigit(s[i]) ==> '\n' in s[..i]
    ensures r.Failure? && r.error.UnknownName? ==>
      r.error.name !in NoteNames && r.error.name <= s
    ensures r.Failure? <==> MatchLabel(s).None? || MatchLabel(s).value.name !in NoteNames
    ensures r.Failure? ==> (r.error.NoMatch? <==> MatchLabel(s).None?)
    ensures r.Success? ==>
      var g := MatchLabel(s).value;
      r.value / 12 == Parse(g.octave) && NoteNames[r.value % 12] == g.name
  {
    var m := MatchLabel(s);
    assert |s| < 2 ==> m.None? by {
      if |s| < 2 { assert SplitPoint(s, 1).None?; }
    }
    match m
    case None => Failure(NoMatch(s))
    case Some(g) => Interpret(g)
  }

  /** The value of a matched label: its octave times twelve plus the position
      of its name (`PitchOfIsIndex` shows `PitchOf` is `list.index` here). */
  function Interpret(g: Groups): Result<nat, ParseError>
    requires AllDigits(g.octave)
  {
    match PitchOf(g.name)
    case None => Failure(UnknownName(g.name))
    case Some(p) => Success(Parse(g.octave) * 12 + p)
  }

  /** No character of the name is a digit or a newline. */
  predicate PlainName(name: string) {
    forall i :: 0 <= i < |name| ==> !IsDigit(name[i]) && name[i] != '\n'
  }

  lemma {:induction false} SplitAtName(s: string, name: string, k: nat)
    requires 1 <= k <= |name| < |s| && name <= s && PlainName(name)
    requires IsDigit(s[|name|])
    decreases |name| - k
    ensures SplitPoint(s, k) == Some(|name|)
  {
    assert s[k - 1] == name[k - 1];
    if k < |name| {
      assert s[k] == name[k];
      SplitAtName(s, name, k + 1);
    }
  }

  lemma {:induction false} DigitRunAcross(s: string, k: nat, e: nat)
    requires k <= e <= |s|
    requires forall i :: k <= i < e ==> IsDigit(s[i])
    requires e == |s| || !IsDigit(s[e])
    decreases e - k
    ensures DigitRunEnd(s, k) == e
  {
    if k < e {
      DigitRunAcross(s, k + 1, e);
    }
  }

  /** The pattern splits `name + digits + rest` into `name` and `digits`
      whenever the name is plain and `rest` does not continue the digits. */
  lemma MatchNameDigits(name: string, digits: string, rest: string)
    requires |name| >= 1 && PlainName(name)
    requires |digits| >= 1 && AllDigits(digits)
    requires |rest| == 0 || !IsDigit(rest[0])
    ensures MatchLabel(name + digits + rest) == Some(Groups(name, digits))
  {
    var s := name + digits + rest;
    var e := |name| + |digits|;
    assert s[|name|] == digits[0];
    SplitAtName(s, name, 1);
    assert forall i :: |name| <= i < e ==> s[i] == digits[i - |name|];
    assert e < |s| ==> s[e] == rest[0];
    DigitRunAcross(s, |name|, e);
    assert s[..|name|] == name;
    assert s[|name|..e] == digits;
  }

  /** `list.index` raises exactly when the value is absent. */
  lemma {:induction false} IndexOfAbsent(xs: seq<string>, x: string)
    ensures IndexOf(xs, x).None? <==> x !in xs
  {
    if |xs| > 0 && xs[0] != x {
      IndexOfAbsent(xs[1..], x);
      assert x in xs <==> x in xs[1..] by {
        assert xs == [xs[0]] + xs[1..];
      }
    }
  }

  lemma {:induction false} IndexOfDistinct(xs: seq<string>, i: nat)
    requires i < |xs|
    requires forall a, b :: 0 <= a < b < |xs| ==> xs[a] != xs[b]
    ensures IndexOf(xs, xs[i]) == Some(i)
  {
    if i > 0 {
      assert xs[1..][i - 1] == xs[i];
      IndexOfDistinct(xs[1..], i - 1);
    }
  }

  /** No name occurs twice, so `list.index` finds each at its own place. */
  lemma NamesDistinct()
    ensures forall a, b :: 0 <= a < b < |NoteNames| ==> NoteNames[a] != NoteNames[b]
  {
    forall a, b | 0 <= a < b < |NoteNames|
      ensures NoteNames[a] != NoteNames[b]
    {
      assert |NoteNames[a]| != |NoteNames[b]| || NoteNames[a][0] != NoteNames[b][0];
    }
  }

  /** Every name is a letter, possibly followed by a sharp sign. */
  lemma NamesShape(p: PitchClass)
    ensures 1 <= |NoteNames[p]| <= 2
    ensures 'A' <= NoteNames[p][0] <= 'G'
    ensures |NoteNames[p]| == 2 ==> NoteNames[p][1] == '#'
  {
  }

  /** Each of the twelve names is plain and found at its own position. */
  lemma NamesArePlain(p: PitchClass)
    ensures |NoteNames[p]| >= 1 && PlainName(NoteNames[p])
    ensures PitchOf(NoteNames[p]) == Some(p)
  {
    NamesShape(p);
    PitchOfNames(p);
  }

  lemma InterpretKnown(name: string, p: nat, digits: string, octave: nat)
    requires PitchOf(name) == Some(p) && AllDigits(digits) && Parse(digits) == octave
    ensures Interpret(Groups(name, digits)) == Success(octave * 12 + p)
  {
  }

  lemma InterpretUnknown(name: string, digits: string)
    requires PitchOf(name).None? && AllDigits(digits)
    ensures Interpret(Groups(name, digits)) == Failure(UnknownName(name))
  {
  }

  lemma NoteToIntegerOfMatch(s: string, g: Groups)
    requires AllDigits(g.octave) && MatchLabel(s) == Some(g)
    ensures NoteToInteger(s) == Interpret(g)
  {
  }

  /** `note_to_integer(name + digits + rest)` is `int(digits) * 12` plus the
      name's position, for any plain name in the list: anything after the
      digit run is ignored. */
  lemma KnownNameDigits(s: string, name: string, p: nat, digits: string, rest: string, octave: nat)
    requires |name| >= 1 && PlainName(name) && PitchOf(name) == Some(p)
    requires |digits| >= 1 && AllDigits(digits) && Parse(digits) == octave
    requires |rest| == 0 || !IsDigit(rest[0])
    requires s == name + digits + rest
    ensures NoteToInteger(s) == Success(octave * 12 + p)
  {
    var g := Groups(name, digits);
    MatchNameDigits(name, digits, rest);
    InterpretKnown(name, p, digits, octave);
    NoteToIntegerOfMatch(s, g);
  }

  /** A plain name that is not one of the twelve is rejected even when the
      pattern matches, whatever follows the digit run. */
  lemma UnknownNameRejected(name: string, digits: string, rest: string)
    requires |name| >= 1 && PlainName(name) && name !in NoteNames
    requires |digits| >= 1 && AllDigits(digits)
    requires |rest| == 0 || !IsDigit(rest[0])
    ensures NoteToInteger(name + digits + rest) == Failure(UnknownName(name))
  {
    var s := name + digits + rest;
    var g := Groups(name, digits);
    MatchNameDigits(name, digits, rest);
    IndexOfAbsent(NoteNames, name);
    PitchOfIsIndex(name);
    InterpretUnknown(name, digits);
    NoteToIntegerOfMatch(s, g);
  }

  /** Reading a formatted label gives back its note index. */
  lemma LabelRoundTrip(n: Note)
    ensures NoteToInteger(Label(n)) == Success(Index(n))
  {
    var name := NoteNames[n.pitch];
    var d := Format(n.octave);
    NamesArePlain(n.pitch);
    ParseFormat(n.octave);
    assert Label(n) == name + d + [];
    KnownNameDigits(Label(n), name, n.pitch, d, [], n.octave);
  }

  /** The label of the quantised note reads back as the index of the table
      entry the scan chose. */
  lemma QuantisedLabelRoundTrip(t: seq<real>, x: real)
    requires ValidTable(t) && x != 0.0
    ensures FrequencyToNote(t, x).Some?
    ensures NoteToInteger(Label(FrequencyToNote(t, x).value)) == Success(Nearest(t, x, |t|))
  {
    var k := Nearest(t, x, |t|);
    LabelRoundTrip(FrequencyToNote(t, x).value);
    assert Index(Note(k / 12, k % 12)) == k;
  }

  /** The note index orders notes by octave first, then pitch class. */
  lemma IndexOrder(a: Note, b: Note)
    ensures Index(a) < Index(b) <==>
      a.octave < b.octave || (a.octave == b.octave && a.pitch < b.pitch)
  {
    if a.octave < b.octave {
      assert a.octave * 12 + 12 <= b.octave * 12;
    } else if b.octave < a.octave {
      assert b.octave * 12 + 12 <= a.octave * 12;
    }
  }
}

=== FILE: real_facts.dfy ===
/** Ordered-field facts over `real` that the solver does not find unaided;
    each is stated once and used by the quantiser and the statistics. */
module RealFacts {

  lemma DivNonNeg(x: real, n: real)
    requires x >= 0.0 && n > 0.0
    ensures x / n >= 0.0
  {
  }

  lemma DivPos(x: real, n: real)
    requires x > 0.0 && n > 0.0
    ensures x / n > 0.0
  {
  }

  lemma MulNonNeg(x: real, y: real)
    requires x >= 0.0 && y >= 0.0
    ensures x * y >= 0.0
  {
  }

  lemma SquareNonNeg(x: real)
    ensures x * x >= 0.0
  {
  }

  lemma MulPos(x: real, y: real)
    requires x > 0.0 && y > 0.0
    ensures x * y > 0.0
  {
  }

  lemma MulLess(a: real, b: real, c: real)
    requires a < b && c > 0.0
    ensures c * a < c * b && a * c < b * c
  {
  }

  /** A lower bound on a total divides into a lower bound on the average. */
  lemma LowerBoundDiv(lo: real, s: real, n: real)
    requires n > 0.0 && n * lo <= s
    ensures lo <= s / n
  {
    DivNonNeg(s - n * lo, n);
    assert (s - n * lo) / n == s / n - lo;
  }

  /** An upper bound on a total divides into an upper bound on the average. */
  lemma UpperBoundDiv(hi: real, s: real, n: real)
    requires n > 0.0 && s <= n * hi
    ensures s / n <= hi
  {
    DivNonNeg(n * hi - s, n);
    assert (n * hi - s) / n == hi - s / n;
  }

  /** Comparing a quotient with a bound is comparing the dividend with the
      scaled bound. */
  lemma DivGreater(x: real, n: real, c: real)
    requires n > 0.0
    ensures x / n > c <==> x > c * n
  {
    assert (x - c * n) / n == x / n - c;
    if x > c * n {
      DivPos(x - c * n, n);
    } else {
      DivNonNeg(c * n - x, n);
      assert (c * n - x) / n == c - x / n;
    }
  }

  /** Comparing non-negative numbers is comparing their squares. */
  lemma SquareMonotone(a: real, b: real)
    requires a >= 0.0 && b >= 0.0
    ensures a < b <==> a * a < b * b
  {
    assert (b - a) * (b + a) == b * b - a * a;
    if a < b {
      MulPos(b - a, b + a);
    } else {
      MulNonNeg(a - b, b + a);
      assert (a - b) * (b + a) == a * a - b * b;
    }
  }

  /** Cross-multiplying a comparison of two quotients with positive
      divisors. */
  lemma DivLess(a: real, b: real, c: real, d: real)
    requires b > 0.0 && d > 0.0
    ensures a / b < c / d <==> a * d < c * b
  {
    var p, q := a / b, c / d;
    assert p * b == a && q * d == c;
    assert a * d == p * (b * d) && c * b == q * (b * d);
    MulPos(b, d);
    if p < q {
      MulLess(p, q, b * d);
    } else {
      MulNonNeg(p - q, b * d);
      assert (p - q) * (b * d) == p * (b * d) - q * (b * d);
    }
  }
}

=== FILE: recognizer.dfy ===
/** One iteration of the listening loop in `main`, with the nested
    `process_buffer`, as a pure step over an explicit state. The clock, the
    audio device and the FFT are inputs: each iteration receives its
    timestamp and the block's summary. A `Failure` result stands for an
    exception that ends the loop of `main` in whistle.py. */
module Recognizer {
  import opened Results
  import opened NoteMapper
  import opened Spectrum
  import opened Stats
  import opened Gesture

  /** Seconds without an accepted peak that close a segment. */
  const Gap: real := 0.1
  /** Seconds without a new note that close a gesture. */
  const EndGap: real := 1.0
  /** The silence gate on `max(samples)`. */
  const SilenceThreshold: int := 4000
  const MinPower: real := 700000.0
  const LowestFrequency: real := 750.0
  const HighestFrequency: real := 2000.0
  /** A segment needs more than this many samples to become a note. */
  const MinSegmentLength: nat := 10

  /** `buffer`, `notes`, `last_time` and `last_time_note` of `main`. */
  datatype State = State(buffer: seq<real>, notes: seq<string>, lastTime: real, lastTimeNote: real)

  /** The state `main` starts in at time `t0`. */
  function Start(t0: real): State {
    State([], [], t0, t0)
  }

  /** What an iteration knows of its block: the timestamp, and the peak when
      the block passed the silence gate (the peak is computed only then). */
  datatype Block = Block(now: real, peak: Option<Peak>)

  datatype Fault =
    | Unquantised              // frequency_to_note returned None for the mean
    | Unparsed(error: ParseError)  // process_notes could not read a label
    | EmptySpectrum            // a one-sample block left nothing to divide by
    | ZeroRatio                // process_buffer divided a peak by a zero sample

  /** The decision `process_buffer` takes on an open segment. */
  datatype Close = Open | Discarded | Finalized(name: string)

  /** The effect of one iteration: the next state, the note it appended (if
      any) and the gesture it matched (if any). */
  datatype Output = Output(state: State, emitted: Option<string>, gesture: Option<Match>)

  predicate InBand(f: real) {
    LowestFrequency <= f <= HighestFrequency
  }

  /** A peak that survives both `continue`s after the silence gate. */
  predicate Accepted(p: Peak) {
    p.frequency != 0.0 && p.power >= MinPower && InBand(p.frequency)
  }

  /** The invariant every reachable state keeps: buffered frequencies lie in
      the instrument band and every gesture label reads back. */
  ghost predicate Valid(s: State) {
    && (forall i :: 0 <= i < |s.buffer| ==> InBand(s.buffer[i]))
    && (forall i :: 0 <= i < |s.notes| ==> NoteToInteger(s.notes[i]).Success?)
  }

  /** The stability test sees the segment as it was before this iteration's
      frequency is appended, and the gap is measured from the previous
      accepted block. */
  predicate Closes(buffer: seq<real>, lastTime: real, now: real)
    requires |buffer| > 0
  {
    Unstable(buffer) || now - lastTime > Gap
  }

  /** `process_buffer`: keep the segment open, drop it as too short, or
      finalise it into the label of the note nearest its mean frequency. */
  function ProcessBuffer(t: seq<real>, buffer: seq<real>, lastTime: real, now: real): (r: Result<Close, Fault>)
    requires ValidTable(t) && |buffer| > 0
    ensures r == Success(Open) <==> !Closes(buffer, lastTime, now)
    ensures r == Success(Discarded) ==> |buffer| <= MinSegmentLength
    ensures r.Success? && r.value.Finalized? ==>
      |buffer| > MinSegmentLength && Mean(buffer) != 0.0
      && NoteToInteger(r.value.name) == Success(Nearest(t, Mean(buffer), |t|))
    ensures r.Failure? <==> Closes(buffer, lastTime, now) && |buffer| > MinSegmentLength && Mean(buffer) == 0.0
  {
    if !Closes(buffer, lastTime, now) then Success(Open)
    else if |buffer| > MinSegmentLength then
      var m := Mean(buffer);
      if m == 0.0 then Failure(Unquantised)
      else
        QuantisedLabelRoundTrip(t, m);
        Success(Finalized(Label(FrequencyToNote(t, m).value)))
    else Success(Discarded)
  }

  /** Applying a decision: any close empties the segment; a finalised one
      also appends its label and restarts the gesture timer. */
  function Apply(s: State, c: Close, now: real): (s': State)
    ensures c != Open ==> s'.buffer == []
    ensures c == Open ==> s' == s
    ensures s'.lastTime == s.lastTime
    ensures c.Finalized? ==> s'.notes == s.notes + [c.name] && s'.lastTimeNote == now
    ensures !c.Finalized? ==> s'.notes == s.notes && s'.lastTimeNote == s.lastTimeNote
  {
    match c
    case Open => s
    case Discarded => s.(buffer := [])
    case Finalized(l) => s.(buffer := [], notes := s.notes + [l], lastTimeNote := now)
  }

  function Emitted(c: Close): Option<string> {
    if c.Finalized? then Some(c.name) else None
  }

  /** How a note gets emitted: only from a closed segment of more than
      `MinSegmentLength` samples, as the label of the table entry nearest its
      mean; `last_time_note` moves exactly when a note is emitted. */
  ghost predicate EmissionRule(t: seq<real>, closed: seq<real>, s: State, now: real, o: Output)
    requires ValidTable(t)
  {
    match o.emitted
    case Some(l) =>
      && |closed| > MinSegmentLength
      && Mean(closed) != 0.0
      && NoteToInteger(l) == Success(Nearest(t, Mean(closed), |t|))
      && o.state.notes == s.notes + [l]
      && o.state.lastTimeNote == now
    case None =>
      && o.state.notes == s.notes
      && o.state.lastTimeNote == s.lastTimeNote
  }

  /** Lines 208-213: given a peak, `process_buffer` first divides the larger
      of the newest buffered sample and the peak by the smaller. The quotient
      is never read, but the division raises when the smaller one is 0; a
      peak of 0 skips it, so that happens exactly for a newest sample of 0
      and a positive peak. */
  predicate RatioUndefined(buffer: seq<real>, f: real): (b: bool)
    ensures b <==> |buffer| > 0 && buffer[|buffer| - 1] == 0.0 && f > 0.0
  {
    && |buffer| > 0
    && f != 0.0
    && var newest := buffer[|buffer| - 1];
       (if newest > f then f else newest) == 0.0
  }

  /** Lines 252-257: an accepted peak first lets `process_buffer` judge the
      open segment without it, then is appended as the newest sample. */
  function Admit(t: seq<real>, s: State, now: real, f: real): (r: Result<Output, Fault>)
    requires ValidTable(t)
    ensures (forall i :: 0 <= i < |s.buffer| ==> s.buffer[i] > 0.0) ==> r.Success?
    ensures r.Success? ==> r.value.gesture.None?
    ensures r.Success? ==> r.value.state.lastTime == now
    ensures r.Success? ==> r.value.state.buffer == s.buffer + [f] || r.value.state.buffer == [f]
    ensures r.Success? ==> EmissionRule(t, s.buffer, s, now, r.value)
    ensures r.Success? && |s.buffer| == 0 ==> r.value.state.buffer == [f] && r.value.emitted.None?
    ensures r.Success? && |s.buffer| > 0 ==>
      && r.value.state.buffer == (if Closes(s.buffer, s.lastTime, now) then [f] else s.buffer + [f])
      && (r.value.emitted.Some? <==> Closes(s.buffer, s.lastTime, now) && |s.buffer| > MinSegmentLength)
    ensures r == Failure(ZeroRatio) <==> RatioUndefined(s.buffer, f)
    ensures r.Failure? <==>
      || RatioUndefined(s.buffer, f)
      || (|s.buffer| > MinSegmentLength && Closes(s.buffer, s.lastTime, now) && Mean(s.buffer) == 0.0)
  {
    if |s.buffer| == 0 then
      Success(Output(s.(lastTime := now, buffer := [f]), None, None))
    else if RatioUndefined(s.buffer, f) then Failure(ZeroRatio)
    else
      MeanPositive(s.buffer);
      var c :- ProcessBuffer(t, s.buffer, s.lastTime, now);
      var s1 := Apply(s, c, now);
      Success(Output(s1.(lastTime := now, buffer := s1.buffer + [f]), Emitted(c), None))
  }

  /** Lines 259-261: a segment left without an accepted peak for longer than
      `Gap` is closed. */
  function Expire(t: seq<real>, s: State, now: real): (r: Result<Output, Fault>)
    requires ValidTable(t)
    ensures (forall i :: 0 <= i < |s.buffer| ==> s.buffer[i] > 0.0) ==> r.Success?
    ensures r.Success? ==> r.value.gesture.None? && r.value.state.lastTime == s.lastTime
    ensures r.Success? ==> if now - s.lastTime > Gap && |s.buffer| > 0
      then r.value.state.buffer == [] && EmissionRule(t, s.buffer, s, now, r.value)
      else r.value == Output(s, None, None)
    ensures r.Success? ==>
      (r.value.emitted.Some? <==> now - s.lastTime > Gap && |s.buffer| > MinSegmentLength)
    ensures r.Failure? <==>
      now - s.lastTime > Gap && |s.buffer| > MinSegmentLength && Mean(s.buffer) == 0.0
  {
    if now - s.lastTime > Gap && |s.buffer| > 0 then
      MeanPositive(s.buffer);
      var c :- ProcessBuffer(t, s.buffer, s.lastTime, now);
      Success(Output(Apply(s, c, now), Emitted(c), None))
    else Success(Output(s, None, None))
  }

  /** Lines 263-266: a gesture silent for longer than `EndGap` is matched
      and cleared, whatever the match gives. */
  function Flush(s: State, now: real): (r: Result<Output, Fault>)
    ensures (forall i :: 0 <= i < |s.notes| ==> NoteToInteger(s.notes[i]).Success?) ==> r.Success?
    ensures r.Success? ==> r.value.emitted.None?
    ensures r.Success? ==> if now - s.lastTimeNote > EndGap && |s.notes| > 0
      then r.value.state == s.(notes := []) && r.value.gesture.Some?
        && ProcessNotes(s.notes) == Success(r.value.gesture.value)
      else r.value == Output(s, None, None)
    ensures r.Failure? ==> r.error.Unparsed? && r.error.error == ProcessNotes(s.notes).error
    ensures r.Failure? <==> now - s.lastTimeNote > EndGap && |s.notes| > 0 && ProcessNotes(s.notes).Failure?
  {
    if now - s.lastTimeNote > EndGap && |s.notes| > 0 then
      match ProcessNotes(s.notes)
      case Failure(e) => Failure(Unparsed(e))
      case Success(m) => Success(Output(s.(notes := []), None, Some(m)))
    else Success(Output(s, None, None))
  }

  /** One iteration after the samples were read. A loud block whose peak is
      rejected skips everything, including both timeout checks. */
  function Step(t: seq<real>, s: State, b: Block): (r: Result<Output, Fault>)
    requires ValidTable(t)
    ensures b.peak.Some? && !Accepted(b.peak.value) ==> r == Success(Output(s, None, None))
    ensures r.Success? ==>
      r.value.state.lastTimeNote == if r.value.emitted.Some? then b.now else s.lastTimeNote
    ensures r.Success? && b.peak.Some? && Accepted(b.peak.value) ==>
      var f := b.peak.value.frequency;
      && r.value.state.lastTime == b.now
      && (r.value.state.buffer == s.buffer + [f] || r.value.state.buffer == [f])
    ensures r.Success? && b.peak.None? ==>
      && r.value.state.lastTime == s.lastTime
      && (r.value.state.buffer == s.buffer || r.value.state.buffer == [])
    ensures r.Success? && b.peak.Some? && Accepted(b.peak.value) && |s.buffer| > 0 ==>
      && r.value.state.buffer
         == (if Closes(s.buffer, s.lastTime, b.now) then [b.peak.value.frequency]
             else s.buffer + [b.peak.value.frequency])
      && (r.value.emitted.Some? <==>
          Closes(s.buffer, s.lastTime, b.now) && |s.buffer| > MinSegmentLength)
    ensures r.Success? && b.peak.None? ==>
      && r.value.state.buffer == (if b.now - s.lastTime > Gap then [] else s.buffer)
      && (r.value.emitted.Some? <==> b.now - s.lastTime > Gap && |s.buffer| > MinSegmentLength)
  {
    if b.peak.Some? && !Accepted(b.peak.value) then Success(Output(s, None, None))
    else
      var a :- if b.peak.Some? then Admit(t, s, b.now, b.peak.value.frequency) else Success(Output(s, None, None));
      var e :- Expire(t, a.state, b.now);
      var g :- Flush(e.state, b.now);
      Success(Output(g.state, if a.emitted.Some? then a.emitted else e.emitted, g.gesture))
  }

  /** The whole loop body: an empty read is skipped before the clock is
      read; the silence gate compares the signed maximum sample, so a block
      that never rises above 4000 is quiet however far below zero it swings
      and only the timeout checks run; the peak is taken only from a loud
      block. The magnitudes are the absolute values of the first half of the
      block's FFT, which is as long as the block (`get_spectrum`). */
  function Iterate(t: seq<real>, rate: nat, s: State, now: real, samples: seq<int>, mags: seq<real>): (r: Result<Output, Fault>)
    requires ValidTable(t)
    requires |mags| == |samples| / 2
    requires forall j :: 0 <= j < |mags| ==> mags[j] >= 0.0
    ensures |samples| == 0 ==> r == Success(Output(s, None, None))
    ensures |samples| > 0 && (forall i :: 0 <= i < |samples| ==> samples[i] <= SilenceThreshold) ==>
      r == Step(t, s, Block(now, None))
    ensures (exists i :: 0 <= i < |samples| && samples[i] > SilenceThreshold) ==>
      r == if |mags| == 0 then Failure(EmptySpectrum) else Step(t, s, Block(now, Some(PeakOf(mags, rate))))
    ensures r == Failure(EmptySpectrum) <==> |samples| == 1 && samples[0] > SilenceThreshold
  {
    if |samples| == 0 then Success(Output(s, None, None))
    else if MaxSample(samples) > SilenceThreshold then
      if |mags| == 0 then Failure(EmptySpectrum)
      else Step(t, s, Block(now, Some(PeakOf(mags, rate))))
    else Step(t, s, Block(now, None))
  }

  /** A run of iterations: the actions dispatched, in order, and the final
      state, or the fault that stopped the loop. */
  datatype Log = Log(state: State, actions: seq<Action>)

  /** The action an iteration dispatched, if its gesture selected one. */
  function Fired(o: Output): seq<Action> {
    if o.gesture.Some? && o.gesture.value.action.Some? then [o.gesture.value.action.value] else []
  }

  /** One iteration's output in front of the run that follows it. */
  function Cons(o: Output, rest: Result<Log, Fault>): Result<Log, Fault> {
    var l :- rest;
    Success(Log(l.state, Fired(o) + l.actions))
  }

  function Run(t: seq<real>, s: State, blocks: seq<Block>): (r: Result<Log, Fault>)
    requires ValidTable(t)
    decreases |blocks|
    ensures |blocks| == 0 ==> r == Success(Log(s, []))
    ensures r.Success? ==> |r.value.actions| <= |blocks|
  {
    if |blocks| == 0 then Success(Log(s, []))
    else
      var o :- Step(t, s, blocks[0]);
      Cons(o, Run(t, o.state, blocks[1..]))
  }

  // ---------------------------------------------------------------------
  // Properties of the loop

  lemma StartIsValid(t0: real)
    ensures Valid(Start(t0))
  {
  }

  /** Every reachable state keeps the invariant, and from it no iteration
      raises: the mean of a segment is positive, so it always has a note,
      and every label in the gesture reads back. */
  lemma StepKeepsValid(t: seq<real>, s: State, b: Block)
    requires ValidTable(t) && Valid(s)
    ensures Step(t, s, b).Success?
    ensures Valid(Step(t, s, b).value.state)
  {
    if b.peak.Some? && !Accepted(b.peak.value) {
      return;
    }
    var a := if b.peak.Some? then Admit(t, s, b.now, b.peak.value.frequency) else Success(Output(s, None, None));
    if b.peak.Some? {
      AdmitKeepsValid(t, s, b.now, b.peak.value.frequency);
    }
    ExpireKeepsValid(t, a.value.state, b.now);
    var e := Expire(t, a.value.state, b.now);
    FlushKeepsValid(e.value.state, b.now);
  }

  lemma AdmitKeepsValid(t: seq<real>, s: State, now: real, f: real)
    requires ValidTable(t) && Valid(s) && InBand(f)
    ensures Admit(t, s, now, f).Success?
    ensures Valid(Admit(t, s, now, f).value.state)
  {
    AdmitInBand(t, s, now, f);
    AfterSegmentation(t, s, Admit(t, s, now, f).value, now);
  }

  /** Admitting an in-band peak keeps every buffered frequency in band. */
  lemma AdmitInBand(t: seq<real>, s: State, now: real, f: real)
    requires ValidTable(t) && InBand(f)
    requires forall i :: 0 <= i < |s.buffer| ==> InBand(s.buffer[i])
    ensures Admit(t, s, now, f).Success?
    ensures var b := Admit(t, s, now, f).value.state.buffer;
      forall i :: 0 <= i < |b| ==> InBand(b[i])
  {
    assert forall i :: 0 <= i < |s.buffer| ==> s.buffer[i] > 0.0;
    var b := Admit(t, s, now, f).value.state.buffer;
    if b == s.buffer + [f] {
      assert forall i :: 0 <= i < |s.buffer| ==> b[i] == s.buffer[i];
    }
  }

  lemma ExpireKeepsValid(t: seq<real>, s: State, now: real)
    requires ValidTable(t) && Valid(s)
    ensures Expire(t, s, now).Success?
    ensures Valid(Expire(t, s, now).value.state)
  {
    var o := Expire(t, s, now).value;
    if now - s.lastTime > Gap && |s.buffer| > 0 {
      AfterSegmentation(t, s, o, now);
    }
  }

  lemma FlushKeepsValid(s: State, now: real)
    requires Valid(s)
    ensures Flush(s, now).Success?
    ensures Valid(Flush(s, now).value.state)
  {
  }

  /** The band part of the invariant and readable labels survive one
      segmentation stage. */
  lemma AfterSegmentation(t: seq<real>, s: State, o: Output, now: real)
    requires ValidTable(t) && Valid(s)
    requires EmissionRule(t, s.buffer, s, now, o)
    requires forall i :: 0 <= i < |o.state.buffer| ==> InBand(o.state.buffer[i])
    ensures Valid(o.state)
  {
    if o.emitted.Some? {
      var l := o.emitted.value;
      assert o.state.notes == s.notes + [l];
      assert forall i :: 0 <= i < |o.state.notes| ==>
        o.state.notes[i] == (if i < |s.notes| then s.notes[i] else l);
    }
  }

  /** A note is emitted only by closing the segment held before this
      iteration, when it had more than `MinSegmentLength` samples; the note
      is the one nearest the segment's mean and is appended to the gesture.
      No gesture is matched in the iteration that emits a note. */
  lemma StepEmission(t: seq<real>, s: State, b: Block)
    requires ValidTable(t)
    requires Step(t, s, b).Success? && Step(t, s, b).value.emitted.Some?
    ensures var o := Step(t, s, b).value;
      && |s.buffer| > MinSegmentLength
      && Mean(s.buffer) != 0.0
      && NoteToInteger(o.emitted.value) == Success(Nearest(t, Mean(s.buffer), |t|))
      && o.state.notes == s.notes + [o.emitted.value]
      && o.gesture.None?
  {
    var a := if b.peak.Some? then Admit(t, s, b.now, b.peak.value.frequency) else Success(Output(s, None, None));
    var e := Expire(t, a.value.state, b.now);
    var g := Flush(e.value.state, b.now);
    assert g.value == Output(e.value.state, None, None);
  }

  /** A gesture is matched exactly when no note was emitted, more than
      `EndGap` has passed since the last note, and notes are pending; the
      pending notes are matched and then cleared whatever the outcome.
      Otherwise the pending notes are only ever extended. */
  lemma StepGesture(t: seq<real>, s: State, b: Block)
    requires ValidTable(t) && Step(t, s, b).Success?
    ensures var o := Step(t, s, b).value;
      var rejected := b.peak.Some? && !Accepted(b.peak.value);
      o.gesture.Some? <==>
        !rejected && o.emitted.None? && b.now - s.lastTimeNote > EndGap && |s.notes| > 0
    ensures var o := Step(t, s, b).value;
      o.gesture.Some? ==> ProcessNotes(s.notes) == Success(o.gesture.value) && o.state.notes == []
    ensures var o := Step(t, s, b).value;
      o.gesture.None? && o.emitted.None? ==> o.state.notes == s.notes
  {
    if b.peak.Some? && !Accepted(b.peak.value) {
      return;
    }
    var a := if b.peak.Some? then Admit(t, s, b.now, b.peak.value.frequency) else Success(Output(s, None, None));
    var e := Expire(t, a.value.state, b.now);
    var g := Flush(e.value.state, b.now);
    if a.value.emitted.Some? || e.value.emitted.Some? {
      assert e.value.state.lastTimeNote == b.now;
      assert g.value == Output(e.value.state, None, None);
    } else {
      assert e.value.state.notes == s.notes && e.value.state.lastTimeNote == s.lastTimeNote;
    }
  }

  /** The stability test runs before the new frequency joins the segment:
      two accepted peaks that differ only in frequency lead to the same
      decision, the same notes and the same segment up to its newest
      sample. An outlier is therefore noticed one block late. */
  lemma InstabilitySeenLate(t: seq<real>, s: State, now: real, p1: Peak, p2: Peak)
    requires ValidTable(t) && Accepted(p1) && Accepted(p2)
    ensures var r1 := Step(t, s, Block(now, Some(p1)));
      var r2 := Step(t, s, Block(now, Some(p2)));
      && r1.Success? == r2.Success?
      && (r1.Success? ==>
        && r1.value.emitted == r2.value.emitted
        && r1.value.state.notes == r2.value.state.notes
        && r1.value.state.buffer[..|r1.value.state.buffer| - 1]
           == r2.value.state.buffer[..|r2.value.state.buffer| - 1])
  {
    var f1, f2 := p1.frequency, p2.frequency;
    assert RatioUndefined(s.buffer, f1) == RatioUndefined(s.buffer, f2);
    AdmitDecidesWithoutSample(t, s, now, f1, f2);
    var a1 := Admit(t, s, now, f1);
    if a1.Success? {
      var a2 := Admit(t, s, now, f2);
      assert Expire(t, a1.value.state, now) == Success(Output(a1.value.state, None, None));
      assert Expire(t, a2.value.state, now) == Success(Output(a2.value.state, None, None));
      FlushIgnoresBuffer(a1.value.state, a2.value.state, now);
    }
  }

  /** `process_buffer` judges the segment before the new sample joins it, so
      the sample itself only becomes the newest element of the segment. It
      matters otherwise only to the ratio of line 213. */
  lemma AdmitDecidesWithoutSample(t: seq<real>, s: State, now: real, f1: real, f2: real)
    requires ValidTable(t)
    ensures var a1 := Admit(t, s, now, f1);
      var a2 := Admit(t, s, now, f2);
      && (RatioUndefined(s.buffer, f1) == RatioUndefined(s.buffer, f2) ==> a1.Success? == a2.Success?)
      && (a1.Success? && a2.Success? ==>
        && a1.value.emitted == a2.value.emitted
        && a1.value.state.(buffer := []) == a2.value.state.(buffer := [])
        && |a1.value.state.buffer| == |a2.value.state.buffer| > 0
        && a1.value.state.buffer[..|a1.value.state.buffer| - 1]
           == a2.value.state.buffer[..|a2.value.state.buffer| - 1])
  {
    if |s.buffer| > 0 {
      var c := ProcessBuffer(t, s.buffer, s.lastTime, now);
      if c.Success? {
        var s1 := Apply(s, c.value, now);
        assert (s1.buffer + [f1])[..|s1.buffer|] == s1.buffer;
        assert (s1.buffer + [f2])[..|s1.buffer|] == s1.buffer;
      }
    } else {
      assert [f1][..0] == [f2][..0];
    }
  }

  /** The gesture stage does not look at the segment. */
  lemma FlushIgnoresBuffer(s1: State, s2: State, now: real)
    requires s1.(buffer := []) == s2.(buffer := [])
    ensures Flush(s1, now).Success? == Flush(s2, now).Success?
    ensures Flush(s1, now).Success? ==>
      && Flush(s1, now).value.emitted == Flush(s2, now).value.emitted
      && Flush(s1, now).value.gesture == Flush(s2, now).value.gesture
      && Flush(s1, now).value.state.(buffer := []) == Flush(s2, now).value.state.(buffer := [])
      && Flush(s1, now).value.state.buffer == s1.buffer
      && Flush(s2, now).value.state.buffer == s2.buffer
  {
    assert s1.notes == s2.notes && s1.lastTimeNote == s2.lastTimeNote;
  }

  /** A segment holding one steady pitch is extended, not closed, by an
      accepted peak that arrives within `Gap`. */
  lemma SteadyPitchExtends(t: seq<real>, s: State, b: Block, c: real)
    requires ValidTable(t) && Valid(s)
    requires |s.buffer| > 0 && forall i :: 0 <= i < |s.buffer| ==> s.buffer[i] == c
    requires b.peak.Some? && Accepted(b.peak.value) && b.now - s.lastTime <= Gap
    ensures Step(t, s, b).Success?
    ensures Step(t, s, b).value.state.buffer == s.buffer + [b.peak.value.frequency]
    ensures Step(t, s, b).value.emitted.None?
  {
    StepKeepsValid(t, s, b);
    ConstantIsStable(s.buffer, c);
    assert ProcessBuffer(t, s.buffer, s.lastTime, b.now) == Success(Open);
  }

  /** A segment that has become unstable is closed by the next accepted peak,
      which starts a new segment on its own; the closed segment becomes a
      note exactly when it held more than `MinSegmentLength` samples. */
  lemma UnstableRestarts(t: seq<real>, s: State, b: Block)
    requires ValidTable(t) && Valid(s)
    requires |s.buffer| > 0 && Unstable(s.buffer)
    requires b.peak.Some? && Accepted(b.peak.value)
    ensures Step(t, s, b).Success?
    ensures Step(t, s, b).value.state.buffer == [b.peak.value.frequency]
    ensures Step(t, s, b).value.emitted.Some? <==> |s.buffer| > MinSegmentLength
  {
    StepKeepsValid(t, s, b);
  }

  /** A quiet block more than `Gap` after the last accepted peak closes the
      open segment. */
  lemma QuietTimeoutCloses(t: seq<real>, s: State, now: real)
    requires ValidTable(t) && |s.buffer| > 0 && now - s.lastTime > Gap
    requires Step(t, s, Block(now, None)).Success?
    ensures Step(t, s, Block(now, None)).value.state.buffer == []
  {
    var e := Expire(t, s, now);
    assert e.Success?;
  }

  /** From a valid state, a run of iterations never stops with a fault
      and ends in a valid state. */
  lemma {:induction false} RunNeverHalts(t: seq<real>, s: State, blocks: seq<Block>)
    requires ValidTable(t) && Valid(s)
    decreases |blocks|
    ensures Run(t, s, blocks).Success?
    ensures Valid(Run(t, s, blocks).value.state)
  {
    if |blocks| > 0 {
      StepKeepsValid(t, s, blocks[0]);
      RunNeverHalts(t, Step(t, s, blocks[0]).value.state, blocks[1..]);
    }
  }

  /** A gesture matched by one iteration dispatches an action of the table. */
  lemma StepActionInTable(t: seq<real>, s: State, b: Block)
    requires ValidTable(t) && Step(t, s, b).Success?
    ensures var g := Step(t, s, b).value.gesture;
      g.Some? && g.value.action.Some? ==> InTable(g.value.action.value)
  {
    StepGesture(t, s, b);
    var g := Step(t, s, b).value.gesture;
    if g.Some? && g.value.action.Some? {
      assert Pattern(g.value.steps, g.value.action.value) in Patterns;
    }
  }

  /** From a valid state the whole loop body raises only on a loud block of a
      single sample, and otherwise keeps the invariant. */
  lemma IterateKeepsValid(t: seq<real>, rate: nat, s: State, now: real, samples: seq<int>, mags: seq<real>)
    requires ValidTable(t) && Valid(s)
    requires |mags| == |samples| / 2
    requires forall j :: 0 <= j < |mags| ==> mags[j] >= 0.0
    requires |samples| != 1
    ensures Iterate(t, rate, s, now, samples, mags).Success?
    ensures Valid(Iterate(t, rate, s, now, samples, mags).value.state)
  {
    if |samples| > 0 {
      if MaxSample(samples) > SilenceThreshold {
        StepKeepsValid(t, s, Block(now, Some(PeakOf(mags, rate))));
      } else {
        StepKeepsValid(t, s, Block(now, None));
      }
    }
  }

  /** Every action a run dispatches is the action of some entry of the
      gesture table. */
  lemma {:induction false} RunActionsFromTable(t: seq<real>, s: State, blocks: seq<Block>)
    requires ValidTable(t) && Run(t, s, blocks).Success?
    decreases |blocks|
    ensures forall a :: a in Run(t, s, blocks).value.actions ==> InTable(a)
  {
    if |blocks| > 0 {
      var o := Step(t, s, blocks[0]).value;
      StepActionInTable(t, s, blocks[0]);
      RunActionsFromTable(t, o.state, blocks[1..]);
      var rest := Run(t, o.state, blocks[1..]).value;
      assert Run(t, s, blocks).value.actions == Fired(o) + rest.actions;
    }
  }

  /** A run of one block is one iteration: its fault, or its state and the
      action it dispatched. */
  lemma RunOne(t: seq<real>, s: State, b: Block)
    requires ValidTable(t)
    ensures Step(t, s, b).Failure? ==> Run(t, s, [b]) == Failure(Step(t, s, b).error)
    ensures Step(t, s, b).Success? ==>
      var o := Step(t, s, b).value;
      Run(t, s, [b]) == Success(Log(o.state, Fired(o)))
  {
    assert [b][1..] == [];
    if Step(t, s, b).Success? {
      var o := Step(t, s, b).value;
      assert Fired(o) + [] == Fired(o);
    }
  }

  /** A run result continued by the blocks `ys`. */
  function Then(t: seq<real>, first: Result<Log, Fault>, ys: seq<Block>): Result<Log, Fault>
    requires ValidTable(t)
  {
    var l :- first;
    var m :- Run(t, l.state, ys);
    Success(Log(m.state, l.actions + m.actions))
  }

  /** Runs compose: running `xs + ys` is running `xs`, then running `ys`
      from where it ended, with the actions in order; a fault in either part
      stops the whole run with that fault. */
  lemma {:induction false} RunAppend(t: seq<real>, s: State, xs: seq<Block>, ys: seq<Block>)
    requires ValidTable(t)
    decreases |xs|
    ensures Run(t, s, xs + ys) == Then(t, Run(t, s, xs), ys)
  {
    if |xs| == 0 {
      assert xs + ys == ys;
      RunEmptyPrefix(t, s, ys);
    } else if Step(t, s, xs[0]).Success? {
      var o := Step(t, s, xs[0]).value;
      assert (xs + ys)[0] == xs[0];
      assert (xs + ys)[1..] == xs[1..] + ys;
      RunUnfold(t, s, xs + ys);
      RunUnfold(t, s, xs);
      RunAppend(t, o.state, xs[1..], ys);
      ThenCons(t, o, Run(t, o.state, xs[1..]), ys);
    } else {
      assert (xs + ys)[0] == xs[0];
    }
  }

  /** The base case of `RunAppend`. */
  lemma RunEmptyPrefix(t: seq<real>, s: State, ys: seq<Block>)
    requires ValidTable(t)
    ensures Run(t, s, ys) == Then(t, Run(t, s, []), ys)
  {
    var r := Run(t, s, ys);
    if r.Success? {
      assert [] + r.value.actions == r.value.actions;
    }
  }

  /** A run whose first iteration succeeds is that iteration in front of
      the run of the remaining blocks. */
  lemma RunUnfold(t: seq<real>, s: State, blocks: seq<Block>)
    requires ValidTable(t) && |blocks| > 0 && Step(t, s, blocks[0]).Success?
    ensures var o := Step(t, s, blocks[0]).value;
      Run(t, s, blocks) == Cons(o, Run(t, o.state, blocks[1..]))
  {
  }

  /** Continuing a run commutes with putting an iteration in front of it. */
  lemma ThenCons(t: seq<real>, o: Output, r: Result<Log, Fault>, ys: seq<Block>)
    requires ValidTable(t)
    ensures Then(t, Cons(o, r), ys) == Cons(o, Then(t, r, ys))
  {
    if r.Success? {
      var m := Run(t, r.value.state, ys);
      if m.Success? {
        assert Fired(o) + (r.value.actions + m.value.actions)
          == (Fired(o) + r.value.actions) + m.value.actions;
      }
    }
  }
}

=== FILE: results.dfy ===
/** Option and Result values used throughout the model, with the members that
    let `:-` propagate a failure. A `Failure` from the loop body means the
    `main` in whistle.py raised an exception there and stopped listening. */
module Results {

  datatype Option<+T> = None | Some(value: T)

  datatype Result<+T, +E> = Success(value: T) | Failure(error: E) {

    predicate IsFailure() {
      Failure?
    }

    function PropagateFailure<U>(): Result<U, E>
      requires Failure?
    {
      Failure(error)
    }

    function Extract(): T
      requires Success?
    {
      value
    }
  }
}

=== FILE: spectrum.dfy ===
/** Per-block summaries the loop reads from the audio: the largest raw sample
    (the silence gate) and the dominant bin of the magnitude spectrum
    (`get_peak_frequency`). The FFT itself is not part of this model; the
    spectrum arrives as the magnitudes of its first half. */
module Spectrum {

  /** `max(samples)`: the largest sample, signed, so a block that only swings
      far below zero still reads as quiet. */
  function MaxSample(samples: seq<int>): (m: int)
    requires |samples| > 0
    ensures m in samples
    ensures forall i :: 0 <= i < |samples| ==> samples[i] <= m
  {
    if |samples| == 1 then samples[0]
    else
      var m := MaxSample(samples[..|samples| - 1]);
      var last := samples[|samples| - 1];
      if last > m then last else m
  }

  /** The running best of the peak scan. */
  datatype Best = Best(power: real, index: nat)

  /** The scan of `get_peak_frequency` over `mags[..n]`, seeded with power -1
      at index 0; a bin replaces the best only when strictly larger, so the
      first of several equal maxima wins. */
  function Scan(mags: seq<real>, n: nat): (b: Best)
    requires n <= |mags|
    ensures b.power >= -1.0
    ensures forall j :: 0 <= j < n ==> mags[j] <= b.power
    ensures b.power == -1.0 ==> b.index == 0
    ensures b.power != -1.0 ==> b.index < n && mags[b.index] == b.power
    ensures forall j :: 0 <= j < b.index ==> mags[j] < b.power
  {
    if n == 0 then Best(-1.0, 0)
    else
      var b := Scan(mags, n - 1);
      if mags[n - 1] > b.power then Best(mags[n - 1], n - 1) else b
  }

  /** A peak estimate: frequency in Hz and the magnitude of its bin. */
  datatype Peak = Peak(frequency: real, power: real)

  /** The Hz of bin `index` in a half spectrum of `size` bins at `rate`
      samples per second. */
  function BinFrequency(index: nat, rate: nat, size: nat): real
    requires size > 0
  {
    (index as real) * (rate as real) / (2 * size) as real
  }

  /** `get_peak_frequency`: the loudest bin of a non-empty spectrum. When the
      magnitudes are non-negative, as absolute values are, the power is the
      maximum magnitude and the frequency is that of its first bin. */
  function PeakOf(mags: seq<real>, rate: nat): (p: Peak)
    requires |mags| > 0
    ensures forall j :: 0 <= j < |mags| ==> mags[j] <= p.power
    ensures mags[0] >= 0.0 ==> exists k :: (
      && 0 <= k < |mags| && mags[k] == p.power
      && p.frequency == BinFrequency(k, rate, |mags|)
      && forall j :: 0 <= j < k ==> mags[j] < p.power)
  {
    var b := Scan(mags, |mags|);
    Peak(BinFrequency(b.index, rate, |mags|), b.power)
  }

  /** The bin the scan chooses is the first maximiser: the same bin as the
      reference definition below. */
  ghost predicate FirstMaximum(mags: seq<real>, k: nat) {
    && k < |mags|
    && (forall j :: 0 <= j < |mags| ==> mags[j] <= mags[k])
    && (forall j :: 0 <= j < k ==> mags[j] < mags[k])
  }

  lemma FirstMaximumUnique(mags: seq<real>, k1: nat, k2: nat)
    requires FirstMaximum(mags, k1) && FirstMaximum(mags, k2)
    ensures k1 == k2
  {
    assert mags[k1] == mags[k2];
  }

  /** On a spectrum of absolute values the peak bin is the first maximiser,
      and a silent (all-zero) spectrum reports bin 0, which is 0 Hz. */
  lemma PeakIsFirstMaximum(mags: seq<real>, rate: nat, k: nat)
    requires |mags| > 0 && forall j :: 0 <= j < |mags| ==> mags[j] >= 0.0
    requires FirstMaximum(mags, k)
    ensures PeakOf(mags, rate) == Peak(BinFrequency(k, rate, |mags|), mags[k])
  {
    var b := Scan(mags, |mags|);
    assert mags[0] >= 0.0;
    FirstMaximumUnique(mags, b.index, k);
  }
}

=== FILE: stats.dfy ===
/** Mean, population variance and the instability test `process_buffer`
    applies to an open segment: `std(buffer) / mean(buffer) > 0.03`, with
    numpy's population standard deviation. Over exact reals the test is
    stated without a square root. */
module Stats {
  import opened RealFacts

  const MaxErrorRate: real := 0.03

  function Sum(xs: seq<real>): real {
    if |xs| == 0 then 0.0 else xs[0] + Sum(xs[1..])
  }

  /** numpy's `mean`: the value whose `|xs|`-fold multiple is the total. */
  function Mean(xs: seq<real>): (m: real)
    requires |xs| > 0
    ensures (|xs| as real) * m == Sum(xs)
  {
    Sum(xs) / (|xs| as real)
  }

  /** The sum of squared deviations from `m`. */
  function Deviation(xs: seq<real>, m: real): real {
    if |xs| == 0 then 0.0 else (xs[0] - m) * (xs[0] - m) + Deviation(xs[1..], m)
  }

  /** numpy's `var` (ddof 0): the mean squared deviation from the mean. */
  function Variance(xs: seq<real>): (v: real)
    requires |xs| > 0
    ensures v >= 0.0
    ensures (|xs| as real) * v == Deviation(xs, Mean(xs))
  {
    DeviationNonNegative(xs, Mean(xs));
    DivNonNeg(Deviation(xs, Mean(xs)), |xs| as real);
    Deviation(xs, Mean(xs)) / (|xs| as real)
  }

  /** Whether `std / mean > 0.03` holds, case by case on the sign of the
      mean: a positive mean compares squares; a zero mean divides to
      infinity when there is any spread and to NaN when there is none; a
      negative mean gives a ratio of at most zero. */
  predicate Unstable(xs: seq<real>): (b: bool)
    requires |xs| > 0
    ensures b ==> Variance(xs) > 0.0
    ensures Mean(xs) < 0.0 ==> !b
  {
    var m := Mean(xs);
    var v := Variance(xs);
    if m > 0.0 then v > MaxErrorRate * MaxErrorRate * m * m
    else if m == 0.0 then v > 0.0
    else false
  }

  lemma {:induction false} DeviationNonNegative(xs: seq<real>, m: real)
    ensures Deviation(xs, m) >= 0.0
  {
    if |xs| > 0 {
      DeviationNonNegative(xs[1..], m);
      SquareNonNeg(xs[0] - m);
    }
  }

  lemma {:induction false} SumBounds(xs: seq<real>, lo: real, hi: real)
    requires forall i :: 0 <= i < |xs| ==> lo <= xs[i] <= hi
    ensures (|xs| as real) * lo <= Sum(xs) <= (|xs| as real) * hi
  {
    if |xs| > 0 {
      SumBounds(xs[1..], lo, hi);
      assert (|xs| as real) * lo == lo + (|xs[1..]| as real) * lo;
      assert (|xs| as real) * hi == hi + (|xs[1..]| as real) * hi;
    }
  }

  /** The mean lies within any bounds all the samples lie within. */
  lemma MeanBounds(xs: seq<real>, lo: real, hi: real)
    requires |xs| > 0
    requires forall i :: 0 <= i < |xs| ==> lo <= xs[i] <= hi
    ensures lo <= Mean(xs) <= hi
  {
    var n := |xs| as real;
    SumBounds(xs, lo, hi);
    LowerBoundDiv(lo, Sum(xs), n);
    UpperBoundDiv(hi, Sum(xs), n);
  }

  lemma {:induction false} SumPositive(xs: seq<real>)
    requires |xs| > 0 && forall i :: 0 <= i < |xs| ==> xs[i] > 0.0
    ensures Sum(xs) > 0.0
  {
    if |xs| > 1 {
      SumPositive(xs[1..]);
    }
  }

  /** Positive samples have a positive mean, so the ratio test and the
      quantiser are always defined on them. */
  lemma MeanPositive(xs: seq<real>)
    requires |xs| > 0
    ensures (forall i :: 0 <= i < |xs| ==> xs[i] > 0.0) ==> Mean(xs) > 0.0
  {
    if forall i :: 0 <= i < |xs| ==> xs[i] > 0.0 {
      SumPositive(xs);
      DivPos(Sum(xs), |xs| as real);
    }
  }

  lemma {:induction false} DeviationOfConstant(xs: seq<real>, c: real)
    requires forall i :: 0 <= i < |xs| ==> xs[i] == c
    ensures Deviation(xs, c) == 0.0
  {
    if |xs| > 0 {
      DeviationOfConstant(xs[1..], c);
    }
  }

  /** A segment holding one steady pitch is never unstable. */
  lemma ConstantIsStable(xs: seq<real>, c: real)
    requires |xs| > 0
    requires forall i :: 0 <= i < |xs| ==> xs[i] == c
    ensures Mean(xs) == c && Variance(xs) == 0.0
    ensures !Unstable(xs)
  {
    MeanBounds(xs, c, c);
    DeviationOfConstant(xs, c);
  }

  /** For a positive mean the square-free test agrees with whistle.py's
      `std / mean > 0.03`, where `sd` is the non-negative root of the
      variance (which exists, as `Variance` is never negative). */
  lemma UnstableIsErrorRate(xs: seq<real>, sd: real)
    requires |xs| > 0 && Mean(xs) > 0.0
    requires sd >= 0.0 && sd * sd == Variance(xs)
    ensures Unstable(xs) <==> sd / Mean(xs) > MaxErrorRate
  {
    var m := Mean(xs);
    var b := MaxErrorRate * m;
    DivGreater(sd, m, MaxErrorRate);
    SquareMonotone(b, sd);
    assert b * b == MaxErrorRate * MaxErrorRate * m * m;
  }
}
